=== FILE: README.md ===
# cpu_analyzer, modelled in Dafny

cpu_analyzer is a Linux profiler with two halves:

- **The kernel half** is three eBPF tracepoint handlers.
  - `sched_switch` stamps the thread that leaves the CPU in the `offcpu_start` map.
  - If that thread leaves in a non-running state, `sched_switch` also stamps it in `blocked_start`.
  - When a stamped thread is scheduled back in, `sched_switch` emits an off-CPU sample (tid, t0, t2, delta) to a ring buffer.
  - `sched_wakeup` and `sched_wakeup_new` turn a pending `blocked_start` stamp into one count in a 64-bucket log2 histogram of blocked microseconds.
- **The user half** drains the ring buffer.
  - It resolves each sample's tid to a process id (tgid) through a cache backed by `/proc/<tid>/status`.
  - It keeps a per-process aggregate: a total plus a growable array of deltas.
  - Once per interval it prints two reports, off-CPU and blocked.
  - In PID-filter mode each report is one line: this interval's total and the running total.
  - Otherwise each report is a log2 histogram. Rows stop at bucket 21, later buckets fold into an "infinity" row, and the bar is 40 characters wide.

The Dafny model follows that split:

| file | module | models |
|---|---|---|
| `bits.dfy` | `Bits` | powers of two, right shift, floor log2 |
| `sums.dfy` | `Sums` | sums of count sequences |
| `wrappers.dfy` | `Wrappers` | `Option` |
| `sched_probe.dfy` | `SchedProbe` | kernel maps, the ring buffer, the three handlers, event traces |
| `resolver.dfy` | `Resolver` | the tid → tgid cache |
| `aggregator.dfy` | `Aggregator` | per-process delta arrays and the insertion-ordered table |
| `histogram.dfy` | `Histogram` | rows, the infinity row, star scaling, the bar string |
| `offcpu_report.dfy` | `OffcpuReport` | off-CPU bucketing, the cumulative count array, the filter-mode totals |
| `blocked_report.dfy` | `BlockedReport` | bucket midpoints, snapshot differencing, the blocked totals |
| `clock.dfy` | `Clock` | poll timeout and deadline catch-up of the main loop |
| `consumer.dfy` | `Consumer` | the user-side state: ring-buffer callback and the two reports |
| `profiler.dfy` | `Profiler` | properties that join both halves |

Modelling choices:

- State is immutable.
- Each map becomes a Dafny `map`. Whether a key is present is the state ("off CPU", "blocked").
- Every allocation or reservation that can fail (ring-buffer reserve, `calloc`, `realloc`) is a boolean parameter. Its failure path is modelled.
- Reading `/proc` is an oracle parameter `ProcLookup = nat -> Option<Pid>`.
- Clock readings are parameters.
- The uthash table becomes an insertion-ordered key sequence plus a map, because uthash iterates in insertion order.

Two facts about the code that the model keeps:

- The off-CPU counts of global mode are never reset (cpu_analyzer.c:39, 159-181). Each report adds the interval's deltas to the counts of all earlier reports (`Consumer.GlobalCountsAccumulate`).
- A bucket is ⌊log2 µs⌋, with 0 µs and 1 µs both in bucket 0.

## Model

| member | source | states |
|---|---|---|
| SchedProbe.Initial | cpu_analyzer.bpf.c:28-34 | the blocked histogram has 64 buckets, all zero, no thread is stamped, and the probe is in a state every handler accepts from time 0 |
| SchedProbe.Log2U64IsFloorLog2 | cpu_analyzer.bpf.c:53-63 | the six-step shift cascade of `log2_u64` (SchedProbe.Log2U64) computes floor(log2 v) for every 64-bit v (0 for v ≤ 1), always below 64 |
| SchedProbe.BlockedBucket | cpu_analyzer.bpf.c:108-112 | a wakeup's bucket is floor(log2(elapsed ns / 1000)) and lies within the 64 histogram slots |
| SchedProbe.OnSwitch | cpu_analyzer.bpf.c:65-96 | a sample (tid, tgid 0, t0, now, now − t0) is appended exactly when the incoming thread was stamped and the reservation succeeded; the incoming stamp is removed (unless it is also the outgoing thread); the outgoing thread is stamped at now; it is stamped blocked exactly when prev_state ≠ 0; all other threads and the histogram are untouched |
| SchedProbe.OnWakeup | cpu_analyzer.bpf.c:98-120 | an unstamped thread leaves everything unchanged; a stamped one adds exactly one to the bucket of its elapsed time, leaves every other bucket, drops its blocked stamp and touches neither the off-CPU map nor the ring |
| SchedProbe.OnWakeupNew | cpu_analyzer.bpf.c:122-144 | the wakeup_new handler, written out separately, behaves exactly as the wakeup handler |
| SchedProbe.Step | cpu_analyzer.bpf.c:65-144 | any handler keeps stamps not later than the clock, appends at most one sample, never rewrites the ring, never lowers a bucket |
| SchedProbe.Run | cpu_analyzer.bpf.c:65-144 | over a chronological event trace the ring only grows (old ring a prefix, at most one sample per event), every sample has delta = t2 − t0 with t0 ≤ t2, and no bucket is ever lowered |
| SchedProbe.PreemptedThreadIsNeverBlocked | cpu_analyzer.bpf.c:87-106 | a thread switched out while runnable produces an off-CPU sample when switched back in, and its later wakeup changes nothing in the blocked histogram |
| SchedProbe.BlockedThreadCountedOnce | cpu_analyzer.bpf.c:87-118 | a thread switched out while sleeping and then woken adds exactly one count, in the bucket of its sleep time, and loses its blocked stamp while keeping its off-CPU stamp |
| SchedProbe.StepSamples | cpu_analyzer.bpf.c:65-96 | one handler call adds a sample for thread t exactly when it switches t in while t is stamped and the reservation succeeds, and leaves t stamped exactly when it switched t out or t was stamped and not switched in |
| SchedProbe.RunSamplesPerThread | cpu_analyzer.bpf.c:65-96 | over a chronological trace, the number of new samples of any one thread equals the number of its switch-ins, read off the events alone, that come while it is switched out (since a switch-out, or from the start when already stamped) and whose reservation succeeds |
| SchedProbe.ReservedTraceSamplesPerThread | cpu_analyzer.bpf.c:72-88 | when every reservation succeeds, each thread gets exactly as many new samples as it has switch-ins that follow a switch-out: none lost, none doubled |
| Resolver.ResolveTgid | cpu_analyzer.c:74-93 | a non-zero hint wins; else a cached tid answers from the cache; else the /proc answer (0 when unreadable) is returned and cached only when the read succeeded and the entry could be allocated |
| Resolver.ResolveIsTransparent | cpu_analyzer.c:74-92 | with a cache that agrees with /proc, resolution returns exactly what /proc says, the cache still agrees and only grows |
| Resolver.ResolveIsStable | cpu_analyzer.c:78-92 | the first resolution caches the tid exactly when it was cached already or the /proc read succeeded and the entry could be allocated; once cached, for any cache (even one left stale by a reused tid), a second resolution gives the same tgid and leaves the cache unchanged; an uncached tid is read from /proc again, and the second answer is whatever /proc says then |
| Aggregator.AppendDelta | cpu_analyzer.c:95-106 | returns −1 exactly when the array is full and cannot grow (entry unchanged); otherwise the delta is appended; capacity goes 0 → 16 → doubling only when full, and length never exceeds capacity |
| Aggregator.AggregateTgid | cpu_analyzer.c:108-124 | an unknown tgid whose entry cannot be allocated leaves the table unchanged; otherwise the entry's total grows by the delta (even when the delta array cannot grow), new tgids are appended in insertion order, other entries are untouched, and totals still cover the recorded deltas |
| Aggregator.AggregateAddsToTotal | cpu_analyzer.c:108-124 | the sum of all entry totals grows by the delta exactly when the entry exists or could be allocated |
| OffcpuReport.BucketIndex | cpu_analyzer.c:149-154 | the halving loop computes the bucket, floor(log2(ns / 1000)), with 2^idx ≤ µs < 2^(idx+1) |
| OffcpuReport.MaxBucket | cpu_analyzer.c:146-157 | the maximum is an upper bound of every delta's bucket and is attained (0 for no deltas) |
| OffcpuReport.Grow | cpu_analyzer.c:159-168 | the array grows to the needed size, zero-filled, only when it is too short and the reallocation succeeds; otherwise it is unchanged; old counts and the sum are kept |
| OffcpuReport.Tally | cpu_analyzer.c:170-181 | each bucket gains the number of deltas falling in it; deltas beyond the array are dropped, and the sum grows by the number that fit |
| OffcpuReport.RecordDeltas | cpu_analyzer.c:146-181 | after growth and tallying each bucket holds its old count plus the deltas in it, counts never decrease, and when growth succeeded every delta is counted |
| OffcpuReport.DrainFiltered | cpu_analyzer.c:129-137 | in filter mode the interval figure is the sum of all entry totals, the running total grows by it, and the table is emptied |
| OffcpuReport.RowReadsAsWritten | cpu_analyzer.c:196-199 | the rendering loops read buckets 0 … end_bucket in order, at least bucket 0; on a non-empty array these are exactly the slots the rendered rows show, each row's count being the slot it reads |
| OffcpuReport.FailedFirstGrowthReadsPastEnd | cpu_analyzer.c:159-198 | if the very first growth fails the count array is empty but the rendering loop still reads bucket 0 |
| OffcpuReport.OffcpuChart | cpu_analyzer.c:183-247 | no chart for an empty array; otherwise the rendered chart, every read within bounds |
| Histogram.LastNonzero | cpu_analyzer.c:183-187 | the result is the last bucket with a non-zero count (0 if none); every later bucket is zero |
| Histogram.BucketLabelsMatchBucketing | cpu_analyzer.c:206-207 | a value lies between a row's lower and upper label exactly when its floor log2 is that row's bucket |
| Histogram.InfinityLowerIsCapUpper | cpu_analyzer.c:244-245 | the infinity row's label 4194303 is the upper bound of bucket 21 |
| Histogram.InfinityCountPositive | cpu_analyzer.c:190-194 | the infinity count (Histogram.InfinityCount) is positive exactly when some bucket above 21 is non-zero |
| Histogram.MaxCountBounds | cpu_analyzer.c:196-200 | the scaling maximum (Histogram.MaxCount) bounds every shown row and the infinity count |
| Histogram.StarsScale | cpu_analyzer.c:209-215 | for the star count (Histogram.Stars): the maximum count draws 40 stars, zero draws none, and stars are monotone in the count |
| Histogram.Bar | cpu_analyzer.c:217-223 | the bar is 42 characters: '\|', then '*' for the first `stars` positions and spaces up to 40, then '\|' |
| Histogram.BuildBar | cpu_analyzer.c:217-223 | the two fill loops produce exactly that bar for any star count, clamped to 0 … 40 |
| Histogram.Render | cpu_analyzer.c:183-247 | rows are buckets 0 … end_bucket (Histogram.EndBucket), that is min(last non-zero, 21), each with its labels, count and bar; a tail row exists exactly when a bucket above 21 is non-zero and carries their (positive) sum; no count exceeds the maximum |
| Histogram.RenderConservesCounts | cpu_analyzer.c:188-194 | the counts shown in the rows plus the infinity row add up to the sum of all buckets |
| Histogram.LargestCountFillsBar | cpu_analyzer.c:196-215 | when anything is non-zero, the row or infinity row holding the maximum has a full 40-star bar |
| Histogram.AllZeroRendersEmptyBar | cpu_analyzer.c:183-227 | all-zero counts render one row 0 → 1 with count 0 and an empty bar, and no infinity row |
| Histogram.BeyondCapRendersInfinityOnly | cpu_analyzer.c:188-247 | when only buckets above 21 are non-zero, all 22 rows show 0 with empty bars and the infinity row has a full bar |
| BlockedReport.Midpoint | cpu_analyzer.c:341-343 | a bucket's midpoint lies between its lower and upper label |
| BlockedReport.MidpointClosedForm | cpu_analyzer.c:341-343 | the midpoint is 0 for bucket 0 and 3·2^(b−1) − 1 otherwise |
| BlockedReport.SatSub | cpu_analyzer.c:345-346 | the per-bucket delta is the difference when the count did not drop and 0 when it did |
| BlockedReport.Growth | cpu_analyzer.c:340-348 | the growth never exceeds the current counts; when no counter dropped, snapshot plus growth restores the counts; a bucket's growth is zero exactly when its count did not rise above the snapshot |
| BlockedReport.WeightedGrowth | cpu_analyzer.c:338-348 | when no bucket dropped, the midpoint-weighted sum (BlockedReport.Weighted) of the growth plus that of the snapshot is that of the current counts |
| BlockedReport.BlockedFiltered | cpu_analyzer.c:331-351 | running = Σ midpoint·count; interval = Σ midpoint·delta against the stored snapshot, or = running when there was none of that size; interval ≤ running; the snapshot is stored unless its allocation failed |
| BlockedReport.IntervalsTelescope | cpu_analyzer.c:338-351 | two successive reports' interval figures add up to the growth of the running figure across both |
| Clock.PollTimeout | cpu_analyzer.c:514-523 | the timeout is 0 exactly when the deadline has passed; otherwise it is between 1 and 250 ms; a timeout above 1 ms never passes the deadline, and one below 250 ms leaves less than a further millisecond to the deadline |
| Clock.CatchUp | cpu_analyzer.c:535-537 | the deadline advances by a positive whole number of intervals to the first one strictly after now, at most one interval after now |
| Clock.Tick | cpu_analyzer.c:531-538 | a report is printed exactly when the deadline is reached, and the deadline then moves past now; otherwise it stays |
| Clock.Schedule | cpu_analyzer.c:510-538 | over any run of wake-ups the deadline stays start + k·interval·10⁹ ns for some k ≥ 1 (it never drifts off the grid), it is always past the latest wake-up, and at most k − 1 reports have been printed |
| Consumer.Start | cpu_analyzer.c:34-42 | the consumer starts with the given PID filter, an empty tid → tgid cache, an empty (valid) aggregate table with total 0, a zero running total, no off-CPU counts and no blocked snapshot |
| Consumer.HandleSample | cpu_analyzer.c:264-273 | the sample's tgid is resolved (and cached); it is aggregated exactly when no filter is set or it matches the filter, and then the delta goes to the resolved tgid's entry (when it has or gets one) while every other entry is unchanged; nothing else in the state changes |
| Consumer.Consume | cpu_analyzer.c:264-273 | draining samples keeps the table valid and touches only the cache and the table |
| Consumer.ConsumeAddsAcceptedDeltas | cpu_analyzer.c:264-273 | with an agreeing cache and successful allocations, the table's total grows by the sum of the deltas of the samples whose process passes the filter |
| Consumer.ReportOffcpu | cpu_analyzer.c:126-254 | filter mode prints this interval's total and the running total and keeps the counts; global mode folds the deltas into the cumulative counts and draws them through the corrected OffcpuReport.OffcpuChart (see Findings); both empty the table |
| Consumer.ReportBlocked | cpu_analyzer.c:307-429 | no report without a non-empty snapshot; filter mode gives the differenced totals and stores the snapshot; global mode renders the snapshot; nothing else in the state changes |
| Consumer.GlobalCountsAccumulate | cpu_analyzer.c:159-181 | the same deltas in two successive global reports double every bucket |
| Profiler.SnapshotDifferenceIsExact | cpu_analyzer.c:338-351 | since the kernel never lowers a bucket, the filter-mode interval figure between snapshots around any trace is exactly the growth of the running figure |
| Profiler.ThreeMillisecondCycles | cpu_analyzer.c:149-179 | 3 ms lands in bucket 11 (2048 → 4095) in both halves, and ten such deltas put 10 in bucket 11 of the first global report |

## Left out

- Fixed-width arithmetic. The model does not model u64 wrap-around of `now − t0`, of the counters and totals, or of `mid * count`. A single `now − t0` would need 2^64 ns of uptime, but the sums wrap sooner. Each report empties the aggregate entries (cpu_analyzer.c:131-135, 249-253), so an entry's total (cpu_analyzer.c:122) would wrap only if one interval gathered 2^64 ns of off-CPU time across the process's threads. The filter-mode running total (cpu_analyzer.c:137) builds up over the whole run: with N threads off CPU it wraps after about 2^64/N ns, roughly 21 days at N = 10,000. The blocked figures Σ mid·count (cpu_analyzer.c:344, 347) wrap once the summed, midpoint-weighted blocked time reaches 2^64 µs, with every count still far below 2^64.
- SchedProbe.OnSwitch: `offcpu_start` and `blocked_start` are hash maps of 16384 entries (cpu_analyzer.bpf.c:17, 25), and the updates at cpu_analyzer.bpf.c:88 and 92 fail for a new tid when the map is full. The model's maps are unbounded, so OnSwitch always stores the stamp, and SchedProbe.PreemptedThreadIsNeverBlocked, SchedProbe.BlockedThreadCountedOnce, SchedProbe.RunSamplesPerThread and SchedProbe.ReservedTraceSamplesPerThread hold only while fewer than 16384 threads are stamped.
- Consumer.ReportOffcpu: it follows the corrected path. After a failed first growth it draws nothing, where cpu_analyzer.c:197-198 reads the NULL count array (see Findings).
- Clock.PollTimeout: the signed cast of `next_print_ns − now` is replaced by a comparison of naturals. The two agree while the distance fits in 63 bits.
- BlockedReport.Midpoint: for bucket 63 the C expression `1ull << 64` is undefined behaviour. The model uses the unbounded value 2^64.
- u32 truncation of tid, tgid and the PID argument. Identifiers are naturals.
- Star scaling in double precision. `Stars` uses the integer form round(40·count/max). Double rounding may differ from it by one star when count·40/max lies within rounding error of a half star.
- `printf` formatting and column widths. The model keeps the labels, counts and bar strings, not the printed text.
- Failure of a single `bpf_map_lookup_elem` while reading the blocked histogram, and failure of `bpf_obj_get_info_by_fd`. The snapshot is a parameter: `None` for an unreadable map, otherwise the values read.
- `g_blocked_hist_prev_buckets`. The length of the stored snapshot plays its role.
- The `/proc/<tid>/status` parser (`read_tgid_from_proc_status`). It is the `ProcLookup` oracle.
- `free_tid_tgid_cache`, `err_check`, `load_bpf_program` and the libbpf open, load, attach and teardown. They are process setup with no modelled state.
- `ring_buffer__poll` errors and `EINTR`. The endless loop is modelled one iteration at a time (`Clock.Tick`), and the order of ring-buffer delivery is the sequence given to `Consumer.Consume`.
- The clocks (`bpf_ktime_get_ns`, `clock_gettime`). Their readings are parameters.
- Concurrency between CPUs and the atomic add in the wakeup handlers. The handlers are modelled as a sequential trace of events.

## Findings

| source | as written | input that shows it | evidently intended | confidence | as-written member | corrected member |
|---|---|---|---|---|---|---|
| cpu_analyzer.c:159-198 | if the first `realloc` of the off-CPU count array fails, `g_offcpu_hist_num_buckets` stays 0 and `g_offcpu_hist_counts` stays NULL, yet the max and row loops read `counts[0]` | a first global report whose growth allocation fails: `RecordDeltas([], ds, false)` is empty while the row loop reads index 0 | skip rendering when no counts are stored | not executed | OffcpuReport.FailedFirstGrowthReadsPastEnd | OffcpuReport.OffcpuChart |

=== FILE: aggregator.dfy ===
/** The per-process off-CPU aggregator of cpu_analyzer.c: a table keyed by thread-group id
    whose entries hold the running total of the interval and a doubling buffer of the raw
    deltas. The table remembers insertion order, which is the order its iteration visits. */
module Aggregator {
  import opened Sums

  /** The first capacity of a delta buffer. */
  const InitialCap: nat := 16

  /** tgid_agg_entry: `deltas` holds the `len` used slots of a buffer of `cap` slots. */
  datatype AggEntry = AggEntry(total: nat, deltas: seq<nat>, cap: nat)

  /** A capacity reached from 16 by doubling. */
  predicate GrownCap(cap: nat)
    decreases cap
  {
    cap == InitialCap || (cap > InitialCap && cap % 2 == 0 && GrownCap(cap / 2))
  }

  /** A capacity is 0 (no buffer yet) or 16 doubled some number of times. */
  predicate CapShape(cap: nat) {
    cap == 0 || GrownCap(cap)
  }

  /** The total counts every recorded delta; it may count more, because a delta whose
      buffer could not grow is still added to the total. */
  predicate TotalCovers(e: AggEntry) {
    e.total >= SeqSum(e.deltas)
  }

  datatype Appended = Appended(entry: AggEntry, rc: int)

  /** append_delta: store `delta` after the used slots, first growing a full buffer from
      0 to 16 slots or to twice its size; `growOk` says whether realloc succeeds. */
  function AppendDelta(e: AggEntry, delta: nat, growOk: bool): (r: Appended)
    requires |e.deltas| <= e.cap
    ensures r.rc == 0 || r.rc == -1
    // it fails only when the buffer is full and cannot grow, and then nothing changes
    ensures r.rc == -1 <==> |e.deltas| == e.cap && !growOk
    ensures r.rc == -1 ==> r.entry == e
    // otherwise the delta is the new last element and the earlier ones stay
    ensures r.rc == 0 ==> r.entry.deltas == e.deltas + [delta] && r.entry.total == e.total
    ensures |r.entry.deltas| <= r.entry.cap
    ensures r.entry.cap == e.cap ||
            (|e.deltas| == e.cap && r.entry.cap == (if e.cap == 0 then InitialCap else 2 * e.cap))
    ensures CapShape(e.cap) ==> CapShape(r.entry.cap)
  {
    if |e.deltas| == e.cap then
      var newCap := if e.cap != 0 then e.cap * 2 else InitialCap;
      if !growOk then Appended(e, -1)
      else Appended(AggEntry(e.total, e.deltas + [delta], newCap), 0)
    else
      Appended(e.(deltas := e.deltas + [delta]), 0)
  }

  /** The aggregate table: `order` lists the keys in insertion order. */
  datatype AggTable = AggTable(order: seq<nat>, entries: map<nat, AggEntry>)

  const EmptyTable: AggTable := AggTable([], map[])

  predicate NoDup(s: seq<nat>) {
    forall i, j :: 0 <= i < j < |s| ==> s[i] != s[j]
  }

  predicate TableValid(t: AggTable) {
    && NoDup(t.order)
    && (forall g :: g in t.entries ==> g in t.order)
    && (forall i :: 0 <= i < |t.order| ==> t.order[i] in t.entries)
    && (forall g :: g in t.entries ==> |t.entries[g].deltas| <= t.entries[g].cap)
  }

  /** Every entry's total covers its recorded deltas. */
  predicate Accounted(t: AggTable) {
    forall g :: g in t.entries ==> TotalCovers(t.entries[g])
  }

  /** The entry aggregate_tgid starts from: the stored one, or a fresh zeroed one. */
  function EntryFor(t: AggTable, tgid: nat): AggEntry {
    if tgid in t.entries then t.entries[tgid] else AggEntry(0, [], 0)
  }

  /** aggregate_tgid: add `delta` to the entry of `tgid`, creating it when absent
      (`entryAlloc` says whether calloc succeeds), and append the delta to its buffer. */
  function AggregateTgid(t: AggTable, tgid: nat, delta: nat, entryAlloc: bool, growOk: bool): (r: AggTable)
    requires TableValid(t)
    ensures TableValid(r)
    ensures Accounted(t) ==> Accounted(r)
    // without an entry and without memory for one, the sample is dropped
    ensures tgid !in t.entries && !entryAlloc ==> r == t
    ensures tgid in t.entries || entryAlloc ==>
              var before := EntryFor(t, tgid);
              && tgid in r.entries
              && r.entries[tgid].total == before.total + delta
              && r.entries[tgid].deltas ==
                   (if |before.deltas| == before.cap && !growOk then before.deltas else before.deltas + [delta])
    // every other process's entry is untouched
    ensures forall g :: g != tgid ==>
              (g in r.entries <==> g in t.entries) && (g in t.entries ==> r.entries[g] == t.entries[g])
    // a new entry goes to the end of the iteration order
    ensures r.order == if tgid !in t.entries && entryAlloc then t.order + [tgid] else t.order
  {
    if tgid in t.entries then
      var e := t.entries[tgid];
      var a := AppendDelta(e.(total := e.total + delta), delta, growOk);
      SeqSumAppend(e.deltas, delta);
      AggTable(t.order, t.entries[tgid := a.entry])
    else if !entryAlloc then t
    else
      var a := AppendDelta(AggEntry(delta, [], 0), delta, growOk);
      assert SeqSum([delta]) == delta by { SeqSumAppend([], delta); assert [] + [delta] == [delta]; }
      AggTable(t.order + [tgid], t.entries[tgid := a.entry])
  }

  function EntryTotal(m: map<nat, AggEntry>, g: nat): nat {
    if g in m then m[g].total else 0
  }

  /** The totals of the entries of `ks`, summed in iteration order. */
  function SumTotals(ks: seq<nat>, m: map<nat, AggEntry>): nat
    decreases |ks|
  {
    if |ks| == 0 then 0 else SumTotals(ks[..|ks| - 1], m) + EntryTotal(m, ks[|ks| - 1])
  }

  /** The sum of all entry totals of the table. */
  function TotalOf(t: AggTable): nat {
    SumTotals(t.order, t.entries)
  }

  lemma {:induction false} SumTotalsAppend(ks: seq<nat>, k: nat, m: map<nat, AggEntry>)
    ensures SumTotals(ks + [k], m) == SumTotals(ks, m) + EntryTotal(m, k)
  {
    assert (ks + [k])[..|ks|] == ks;
  }

  /** Changing an entry whose key is not listed does not change the sum. */
  lemma {:induction false} SumTotalsFrame(ks: seq<nat>, m: map<nat, AggEntry>, g: nat, e: AggEntry)
    requires g !in ks
    ensures SumTotals(ks, m[g := e]) == SumTotals(ks, m)
    decreases |ks|
  {
    if |ks| > 0 {
      SumTotalsFrame(ks[..|ks| - 1], m, g, e);
    }
  }

  /** Changing the entry of a key listed once changes the sum by the difference of totals. */
  lemma {:induction false} SumTotalsUpdate(ks: seq<nat>, m: map<nat, AggEntry>, g: nat, e: AggEntry)
    requires NoDup(ks) && g in ks
    ensures SumTotals(ks, m[g := e]) + EntryTotal(m, g) == SumTotals(ks, m) + e.total
    decreases |ks|
  {
    var init := ks[..|ks| - 1];
    if ks[|ks| - 1] == g {
      assert g !in init;
      SumTotalsFrame(init, m, g, e);
    } else {
      assert g in init;
      SumTotalsUpdate(init, m, g, e);
    }
  }

  /** Aggregating a sample adds its delta to the sum of totals exactly when the sample
      has (or gets) an entry. */
  lemma AggregateAddsToTotal(t: AggTable, tgid: nat, delta: nat, entryAlloc: bool, growOk: bool)
    requires TableValid(t)
    ensures TotalOf(AggregateTgid(t, tgid, delta, entryAlloc, growOk)) ==
              TotalOf(t) + (if tgid in t.entries || entryAlloc then delta else 0)
  {
    var r := AggregateTgid(t, tgid, delta, entryAlloc, growOk);
    if tgid in t.entries {
      SumTotalsUpdate(t.order, t.entries, tgid, r.entries[tgid]);
    } else if entryAlloc {
      SumTotalsFrame(t.order, t.entries, tgid, r.entries[tgid]);
      SumTotalsAppend(t.order, tgid, r.entries);
    }
  }

  function EntryDeltas(m: map<nat, AggEntry>, g: nat): seq<nat> {
    if g in m then m[g].deltas else []
  }

  /** The recorded deltas of the entries of `ks`, in iteration order. */
  function DeltasAlong(ks: seq<nat>, m: map<nat, AggEntry>): seq<nat>
    decreases |ks|
  {
    if |ks| == 0 then [] else DeltasAlong(ks[..|ks| - 1], m) + EntryDeltas(m, ks[|ks| - 1])
  }

  /** Every recorded delta of the table, as the render's nested iteration visits them. */
  function AllDeltas(t: AggTable): seq<nat> {
    DeltasAlong(t.order, t.entries)
  }
}

=== FILE: bits.dfy ===
/** Powers of two, right shifts and floor-log2 over unbounded naturals: the arithmetic
    shared by the kernel-side and user-side bucketing of durations. */
module Bits {

  /** 2^n. */
  function Pow2(n: nat): (r: nat)
    ensures r >= 1
  {
    if n == 0 then 1 else 2 * Pow2(n - 1)
  }

  /** Nanoseconds per microsecond: both halves bucket durations in whole microseconds. */
  const NsPerUs: nat := 1000

  /** One past the largest unsigned 64-bit value. */
  const U64Limit: nat := 0x1_0000_0000_0000_0000

  /** The 64-bit range is 2^64 values wide. */
  lemma Pow2Of64()
    ensures Pow2(64) == U64Limit
  {
    assert Pow2(8) == 256;
    Pow2Add(8, 8);
    Pow2Add(16, 16);
    Pow2Add(32, 32);
  }

  /** `v >> k` on an unsigned value: k successive halvings. */
  function Shr(v: nat, k: nat): (r: nat)
    ensures r <= v
  {
    if k == 0 then v else Shr(v / 2, k - 1)
  }

  /** The number of halvings that bring `v` down to 1: ⌊log2 v⌋ for v >= 1, and 0 for v = 0. */
  function FloorLog2(v: nat): (r: nat)
    ensures v >= 1 ==> Pow2(r) <= v < Pow2(r + 1)
    ensures v <= 1 ==> r == 0
  {
    if v <= 1 then 0 else 1 + FloorLog2(v / 2)
  }

  lemma {:induction false} Pow2Monotone(a: nat, b: nat)
    requires a <= b
    ensures Pow2(a) <= Pow2(b)
    decreases b - a
  {
    if a < b {
      Pow2Monotone(a, b - 1);
    }
  }

  lemma {:induction false} Pow2Add(a: nat, b: nat)
    ensures Pow2(a + b) == Pow2(a) * Pow2(b)
  {
    if a > 0 {
      Pow2Add(a - 1, b);
      assert Pow2(a + b) == 2 * Pow2(a - 1 + b);
    }
  }

  /** The bracket Pow2(a) <= v < Pow2(a + 1) determines a: it is ⌊log2 v⌋. */
  lemma FloorLog2Unique(v: nat, a: nat)
    requires Pow2(a) <= v < Pow2(a + 1)
    ensures FloorLog2(v) == a
  {
    var r := FloorLog2(v);
    if r < a {
      Pow2Monotone(r + 1, a);
    } else if r > a {
      Pow2Monotone(a + 1, r);
    }
  }

  /** A value below 2^n has a floor-log2 below n. */
  lemma FloorLog2Below(v: nat, n: nat)
    requires 1 <= n && v < Pow2(n)
    ensures FloorLog2(v) < n
  {
    var r := FloorLog2(v);
    if v >= 1 && r >= n {
      Pow2Monotone(n, r);
    }
  }

  /** Shifting right by k while something is left removes exactly k from the floor-log2. */
  lemma {:induction false} FloorLog2Shr(v: nat, k: nat)
    requires Shr(v, k) >= 1
    ensures FloorLog2(v) == k + FloorLog2(Shr(v, k))
  {
    if k > 0 {
      FloorLog2Shr(v / 2, k - 1);
    }
  }

  /** A value below 2^(a + k) shifted right by k is below 2^a. */
  lemma {:induction false} ShrBelow(v: nat, a: nat, k: nat)
    requires v < Pow2(a + k)
    ensures Shr(v, k) < Pow2(a)
  {
    if k > 0 {
      ShrBelow(v / 2, a, k - 1);
    }
  }

  /** Shifting right by k leaves nothing exactly when the value is below 2^k. */
  lemma {:induction false} ShrZeroBelow(v: nat, k: nat)
    requires Shr(v, k) == 0
    ensures v < Pow2(k)
  {
    if k > 0 {
      ShrZeroBelow(v / 2, k - 1);
    }
  }
}

=== FILE: blocked_report.dfy ===
/** The blocked half of the interval report of cpu_analyzer.c (print_blocked_histogram).
    The kernel counters are lifetime totals. In single-process mode the report estimates
    microseconds by weighting each bucket with its midpoint, both for the lifetime counts
    and for the per-bucket growth since the previous snapshot, and then keeps the current
    counts as the new snapshot. In global mode the lifetime counts are drawn as they are. */
module BlockedReport {
  import opened Bits
  import opened Wrappers
  import opened Histogram

  /** The microsecond value standing for bucket b: the floor of the mean of its bounds. */
  function Midpoint(b: nat): (m: nat)
    ensures BucketLower(b) <= m <= BucketUpper(b)
  {
    (BucketLower(b) + BucketUpper(b)) / 2
  }

  /** Bucket 0 stands for 0 µs; bucket b >= 1 for 3·2^(b-1) - 1 µs. */
  lemma MidpointClosedForm(b: nat)
    ensures b == 0 ==> Midpoint(b) == 0
    ensures b >= 1 ==> Midpoint(b) == 3 * Pow2(b - 1) - 1
  {
  }

  /** `c - p` when positive, else 0. */
  function SatSub(c: nat, p: nat): (r: nat)
    ensures p <= c ==> r + p == c
    ensures p >= c ==> r == 0
  {
    if c > p then c - p else 0
  }

  /** The per-bucket growth since the snapshot `prev`. It never exceeds the current count,
      and when no counter dropped, adding it back to the snapshot restores the counts. */
  function Growth(counts: seq<nat>, prev: seq<nat>): (r: seq<nat>)
    requires |prev| == |counts|
    ensures |r| == |counts| && Below(r, counts)
    ensures Below(prev, counts) ==> forall b :: 0 <= b < |r| ==> prev[b] + r[b] == counts[b]
    ensures forall b :: 0 <= b < |r| ==> (r[b] == 0 <==> counts[b] <= prev[b])
  {
    seq(|counts|, b requires 0 <= b < |counts| => SatSub(counts[b], prev[b]))
  }

  /** Σ Midpoint(b) · cs[b]: the microseconds the bucket counts stand for. */
  function Weighted(cs: seq<nat>): nat
    decreases |cs|
  {
    if |cs| == 0 then 0 else Weighted(cs[..|cs| - 1]) + Midpoint(|cs| - 1) * cs[|cs| - 1]
  }

  /** Pointwise "no larger". */
  predicate Below(a: seq<nat>, c: seq<nat>) {
    |a| == |c| && forall b :: 0 <= b < |a| ==> a[b] <= c[b]
  }

  /** Growth is taken bucket by bucket, so it commutes with cutting both arrays short. */
  lemma GrowthPrefix(counts: seq<nat>, prev: seq<nat>, n: nat)
    requires |prev| == |counts| && n <= |counts|
    ensures Growth(counts, prev)[..n] == Growth(counts[..n], prev[..n])
  {
  }

  /** Weighting distributes over a count split into growth and snapshot. */
  lemma WeightSplits(m: nat, c: nat, g: nat, p: nat)
    requires c == g + p
    ensures m * c == m * g + m * p
  {
  }

  /** When counters only grew since the snapshot, the growth and the snapshot together
      stand for exactly the current counts. */
  lemma {:induction false} WeightedGrowth(counts: seq<nat>, prev: seq<nat>)
    requires Below(prev, counts)
    ensures Weighted(Growth(counts, prev)) + Weighted(prev) == Weighted(counts)
    decreases |counts|
  {
    if |counts| > 0 {
      var n := |counts| - 1;
      var g := Growth(counts, prev);
      GrowthPrefix(counts, prev, n);
      WeightedGrowth(counts[..n], prev[..n]);
      assert prev[n] + g[n] == counts[n];
      WeightSplits(Midpoint(n), counts[n], g[n], prev[n]);
    }
  }

  /** Smaller counts stand for no more microseconds. */
  lemma {:induction false} WeightedMonotone(a: seq<nat>, c: seq<nat>)
    requires Below(a, c)
    ensures Weighted(a) <= Weighted(c)
    decreases |c|
  {
    if |c| > 0 {
      var n := |c| - 1;
      WeightedMonotone(a[..n], c[..n]);
      MulMonotone(a[n], c[n], Midpoint(n));
      assert Midpoint(n) * a[n] == a[n] * Midpoint(n);
      assert Midpoint(n) * c[n] == c[n] * Midpoint(n);
    }
  }

  datatype BlockedTotals = BlockedTotals(intervalUs: nat, runningUs: nat)

  datatype BlockedStep = BlockedStep(totals: BlockedTotals, prev: Option<seq<nat>>)

  /** The single-process blocked report. `prev` is the saved snapshot (None while none
      could be allocated); a missing or differently sized snapshot is replaced by a zeroed
      one, whose calloc succeeds when `allocOk`. */
  function BlockedFiltered(counts: seq<nat>, prev: Option<seq<nat>>, allocOk: bool): (r: BlockedStep)
    ensures r.totals.runningUs == Weighted(counts)
    // with a usable snapshot the interval figure weighs the growth since it
    ensures prev.Some? && |prev.value| == |counts| ==>
              r.totals.intervalUs == Weighted(Growth(counts, prev.value))
    // without one, everything counted so far belongs to this interval
    ensures !(prev.Some? && |prev.value| == |counts|) ==> r.totals.intervalUs == r.totals.runningUs
    ensures r.totals.intervalUs <= r.totals.runningUs
    // the snapshot becomes the current counts, unless there is still no snapshot buffer
    ensures r.prev.None? <==> !(prev.Some? && |prev.value| == |counts|) && !allocOk
    ensures r.prev.Some? ==> r.prev.value == counts
  {
    var zeros := seq(|counts|, _ => 0);
    var base := if prev.None? || |prev.value| != |counts| then (if allocOk then Some(zeros) else None) else prev;
    var before := if base.Some? then base.value else zeros;
    var growth := Growth(counts, before);
    assert Below(growth, counts);
    WeightedMonotone(growth, counts);
    assert before == zeros ==> growth == counts;
    BlockedStep(BlockedTotals(Weighted(growth), Weighted(counts)), if base.Some? then Some(counts) else None)
  }

  /** Over two consecutive reports of counters that only grow, the interval figures add up
      to the growth of the lifetime figure: nothing is counted twice or lost. */
  lemma IntervalsTelescope(c0: seq<nat>, c1: seq<nat>, c2: seq<nat>, a1: bool, a2: bool)
    requires Below(c0, c1) && Below(c1, c2)
    ensures var s1 := BlockedFiltered(c1, Some(c0), a1);
            var s2 := BlockedFiltered(c2, s1.prev, a2);
            s1.totals.intervalUs + s2.totals.intervalUs + Weighted(c0) == s2.totals.runningUs
  {
    WeightedGrowth(c1, c0);
    WeightedGrowth(c2, c1);
  }
}

=== FILE: clock.dfy ===
/** The reporting clock of cpu_analyzer.c's main loop: poll the ring buffer with a timeout
    that reaches toward the next deadline, and when the deadline has passed, report once
    and move the deadline forward by whole intervals until it is in the future. Times are
    monotonic-clock nanoseconds, passed in rather than read. */
module Clock {

  const NsPerMs: nat := 1000000
  const NsPerSec: nat := 1000000000

  /** The longest single poll, in milliseconds. */
  const MaxPollMs: nat := 250

  /** The first deadline: one interval (given in whole seconds) after start-up. */
  function FirstDeadline(start: nat, intervalSec: nat): (next: nat)
    requires intervalSec > 0
    ensures next > start
    ensures next - start == intervalSec * NsPerSec
  {
    start + intervalSec * NsPerSec
  }

  /** The poll timeout: 0 once the deadline is due; otherwise the whole milliseconds left,
      raised to at least 1 and capped at 250. */
  function PollTimeout(next: nat, now: nat): (ms: nat)
    ensures ms == 0 <==> next <= now
    ensures next > now ==> 1 <= ms <= MaxPollMs
    // the poll never outlasts the deadline, except by the 1 ms floor
    ensures ms > 1 ==> ms * NsPerMs <= next - now
    // it waits as long as it may: up to the deadline when that is under 250 ms away
    ensures next > now && ms < MaxPollMs ==> next - now < (ms + 1) * NsPerMs
  {
    var remainNs: int := next - now;
    if remainNs <= 0 then 0
    else
      var remainMs := remainNs / NsPerMs;
      if remainMs == 0 then 1
      else if remainMs > MaxPollMs then MaxPollMs
      else remainMs
  }

  /** The catch-up loop after a report: add the interval to the deadline until it passes
      `now`. `steps` is how many intervals were added. */
  method CatchUp(next: nat, now: nat, interval: nat) returns (deadline: nat, steps: nat)
    requires interval > 0
    requires next <= now
    ensures steps >= 1 && deadline == next + steps * interval
    // the new deadline is the first one past now: no interval is skipped needlessly
    ensures now < deadline <= now + interval
  {
    deadline := next;
    steps := 0;
    while true
      invariant deadline == next + steps * interval
      invariant deadline <= now
      decreases now - deadline
    {
      deadline := deadline + interval;
      steps := steps + 1;
      if deadline > now {
        return;
      }
    }
  }

  /** One pass of the main loop after the poll returns: report when the deadline is due
      and then catch the deadline up; otherwise leave it. `steps` counts the intervals the
      deadline moved. */
  method Tick(next: nat, now: nat, interval: nat) returns (report: bool, deadline: nat, steps: nat)
    requires interval > 0
    ensures report <==> next <= now
    // the deadline stays on the grid of whole intervals from where it was
    ensures deadline == next + steps * interval
    ensures !report ==> steps == 0
    ensures report ==> steps >= 1 && now < deadline <= now + interval
  {
    report := next <= now;
    if report {
      deadline, steps := CatchUp(next, now, interval);
    } else {
      deadline, steps := next, 0;
    }
  }

  /** The main loop's deadline over a run of wake-ups at the times in `nows`: it starts at
      the first deadline and each pass is one Tick. The deadline never drifts off the grid
      of whole intervals from start-up, it is always ahead of the latest wake-up, and there
      are never more reports than intervals elapsed. */
  method Schedule(start: nat, intervalSec: nat, nows: seq<nat>) returns (deadline: nat, k: nat, reports: nat)
    requires intervalSec > 0
    ensures k >= 1 && deadline == start + k * (intervalSec * NsPerSec)
    ensures reports + 1 <= k
    ensures |nows| > 0 ==> nows[|nows| - 1] < deadline
  {
    var interval := intervalSec * NsPerSec;
    deadline := FirstDeadline(start, intervalSec);
    k := 1;
    reports := 0;
    var i := 0;
    while i < |nows|
      invariant i <= |nows|
      invariant k >= 1 && deadline == start + k * interval
      invariant reports + 1 <= k
      invariant i > 0 ==> nows[i - 1] < deadline
    {
      var report, next, steps := Tick(deadline, nows[i], interval);
      assert next == start + (k + steps) * interval by {
        assert (k + steps) * interval == k * interval + steps * interval;
      }
      k := k + steps;
      if report {
        reports := reports + 1;
      }
      deadline := next;
      i := i + 1;
    }
  }
}

=== FILE: consumer.dfy ===
/** The user-space consumer of cpu_analyzer.c: the ring-buffer callback (handle_rb_event),
    which resolves each sample's owner and aggregates it when it passes the PID filter,
    and the two halves of the interval report that main runs when the deadline is due. */
module Consumer {
  import opened Wrappers
  import opened Resolver
  import opened Aggregator
  import opened Histogram
  import opened OffcpuReport
  import opened BlockedReport
  import SchedProbe

  /** The consumer's state. `filter` is the PID given on the command line, 0 for none. */
  datatype State = State(
    filter: nat,
    cache: map<nat, Pid>,
    table: AggTable,
    offcpuRunningNs: nat,
    offcpuCounts: seq<nat>,
    blockedPrev: Option<seq<nat>>)

  /** Which allocations succeed while one sample is handled: the cache entry, the
      aggregate entry, and the growth of its delta buffer. */
  datatype Allocs = Allocs(cacheEntry: bool, aggEntry: bool, deltaBuffer: bool)

  /** The globals at start-up: empty cache and table, no off-CPU time or counts yet, no
      blocked snapshot; only the PID filter is set. */
  function Start(filter: nat): (st: State)
    ensures st.filter == filter
    ensures st.cache == map[] && st.table == EmptyTable && TableValid(st.table)
    ensures TotalOf(st.table) == 0 && st.offcpuRunningNs == 0
    ensures |st.offcpuCounts| == 0 && st.blockedPrev.None?
  {
    State(filter, map[], EmptyTable, 0, [], None)
  }

  /** A sample is aggregated when no PID filter is set or its owner is the filtered PID. */
  predicate Accepted(filter: nat, tgid: nat) {
    filter == 0 || tgid == filter
  }

  /** handle_rb_event: resolve the sample's owner, then aggregate it if it passes the
      filter. Samples whose owner cannot be found go under owner 0. */
  function HandleSample(st: State, ev: SchedProbe.Sample, lookup: ProcLookup, al: Allocs): (r: State)
    requires TableValid(st.table)
    ensures TableValid(r.table)
    ensures var res := ResolveTgid(st.cache, ev.tid, ev.tgid, lookup, al.cacheEntry);
            && r.cache == res.cache
            // a sample of another process leaves the table as it was
            && (!Accepted(st.filter, res.tgid) ==> r.table == st.table)
            // an accepted sample adds its delta to the total when it has or gets an entry
            && (Accepted(st.filter, res.tgid) ==>
                  TotalOf(r.table) == TotalOf(st.table) + (if res.tgid in st.table.entries || al.aggEntry then ev.delta else 0))
            && (Accepted(st.filter, res.tgid) && (res.tgid in st.table.entries || al.aggEntry) ==>
                  && res.tgid in r.table.entries
                  // the delta lands in the entry of the resolved owner
                  && r.table.entries[res.tgid].total == EntryFor(st.table, res.tgid).total + ev.delta)
            // and no other process's entry moves
            && (forall g :: g != res.tgid ==>
                  (g in r.table.entries <==> g in st.table.entries)
                  && (g in st.table.entries ==> r.table.entries[g] == st.table.entries[g]))
            && (Accepted(st.filter, res.tgid) ==>
                  r.table == AggregateTgid(st.table, res.tgid, ev.delta, al.aggEntry, al.deltaBuffer))
    ensures r.(cache := st.cache, table := st.table) == st
  {
    var res := ResolveTgid(st.cache, ev.tid, ev.tgid, lookup, al.cacheEntry);
    if Accepted(st.filter, res.tgid) then
      AggregateAddsToTotal(st.table, res.tgid, ev.delta, al.aggEntry, al.deltaBuffer);
      st.(cache := res.cache, table := AggregateTgid(st.table, res.tgid, ev.delta, al.aggEntry, al.deltaBuffer))
    else
      st.(cache := res.cache)
  }

  /** The samples of one ring-buffer drain, handled in submission order. */
  function Consume(st: State, evs: seq<SchedProbe.Sample>, lookup: ProcLookup, als: seq<Allocs>): (r: State)
    requires TableValid(st.table) && |als| == |evs|
    ensures TableValid(r.table)
    ensures r.filter == st.filter && r.offcpuRunningNs == st.offcpuRunningNs
    ensures r.offcpuCounts == st.offcpuCounts && r.blockedPrev == st.blockedPrev
    decreases |evs|
  {
    if |evs| == 0 then st
    else Consume(HandleSample(st, evs[0], lookup, als[0]), evs[1..], lookup, als[1..])
  }

  /** The owner of a sample: its own tgid when set, otherwise what /proc says (0 if nothing). */
  function SampleOwner(ev: SchedProbe.Sample, lookup: ProcLookup): nat {
    if ev.tgid != 0 then ev.tgid else OwnerOf(lookup, ev.tid)
  }

  /** The summed deltas of the samples that pass the filter. */
  function AcceptedSum(evs: seq<SchedProbe.Sample>, filter: nat, lookup: ProcLookup): nat
    decreases |evs|
  {
    if |evs| == 0 then 0
    else (if Accepted(filter, SampleOwner(evs[0], lookup)) then evs[0].delta else 0)
         + AcceptedSum(evs[1..], filter, lookup)
  }

  /** While the cache agrees with /proc and aggregate entries can be allocated, the table
      gains exactly the deltas of the samples that pass the filter: nothing is lost,
      counted twice, or attributed to a filtered-out process. */
  lemma {:induction false} ConsumeAddsAcceptedDeltas(st: State, evs: seq<SchedProbe.Sample>, lookup: ProcLookup, als: seq<Allocs>)
    requires TableValid(st.table) && |als| == |evs|
    requires CacheAgrees(st.cache, lookup)
    requires forall i :: 0 <= i < |als| ==> als[i].aggEntry
    ensures TotalOf(Consume(st, evs, lookup, als).table) == TotalOf(st.table) + AcceptedSum(evs, st.filter, lookup)
    decreases |evs|
  {
    if |evs| > 0 {
      var ev := evs[0];
      ResolveIsTransparent(st.cache, ev.tid, lookup, als[0].cacheEntry);
      var next := HandleSample(st, ev, lookup, als[0]);
      assert forall i :: 0 <= i < |als[1..]| ==> als[1..][i].aggEntry;
      ConsumeAddsAcceptedDeltas(next, evs[1..], lookup, als[1..]);
    }
  }

  datatype OffcpuOutput =
    | OffcpuLine(intervalNs: nat, runningNs: nat)
    | OffcpuHistogram(chart: Option<Chart>)

  /** print_off_cpu_histogram. `growOk` says whether growing the persistent count array
      succeeds. The aggregate table is empty afterwards in both modes. */
  method ReportOffcpu(st: State, growOk: bool) returns (out: OffcpuOutput, r: State)
    ensures r.table == EmptyTable
    ensures r.filter == st.filter && r.cache == st.cache && r.blockedPrev == st.blockedPrev
    // single-process mode: the interval figure is the sum of all totals, added to the running total
    ensures st.filter != 0 ==>
              && out == OffcpuLine(TotalOf(st.table), st.offcpuRunningNs + TotalOf(st.table))
              && r.offcpuRunningNs == st.offcpuRunningNs + TotalOf(st.table)
              && r.offcpuCounts == st.offcpuCounts
    // global mode: the deltas go into the persistent counts, which are drawn
    ensures st.filter == 0 ==>
              && r.offcpuCounts == RecordDeltas(st.offcpuCounts, AllDeltas(st.table), growOk)
              && out == OffcpuHistogram(OffcpuChart(r.offcpuCounts))
              && r.offcpuRunningNs == st.offcpuRunningNs
    ensures r.offcpuRunningNs >= st.offcpuRunningNs
  {
    if st.filter != 0 {
      var intervalNs, runningNs, rest := DrainFiltered(st.table, st.offcpuRunningNs);
      out := OffcpuLine(intervalNs, runningNs);
      r := st.(table := rest, offcpuRunningNs := runningNs);
    } else {
      var counts := RecordDeltas(st.offcpuCounts, AllDeltas(st.table), growOk);
      out := OffcpuHistogram(OffcpuChart(counts));
      r := st.(table := EmptyTable, offcpuCounts := counts);
    }
  }

  datatype BlockedOutput =
    | NoBlockedReport
    | BlockedLine(totals: BlockedTotals)
    | BlockedChart(chart: Chart)

  /** print_blocked_histogram. `snapshot` is the kernel array read through its map fd, None
      when the fd or the map information is unavailable or when the buffer for the read
      counts cannot be allocated (both end the report silently); `allocOk` says whether a fresh
      snapshot buffer can be allocated. */
  function ReportBlocked(st: State, snapshot: Option<seq<nat>>, allocOk: bool): (res: (BlockedOutput, State))
    ensures res.1.(blockedPrev := st.blockedPrev) == st
    // no map or an empty one: nothing is printed and nothing changes
    ensures snapshot.None? || |snapshot.value| == 0 ==> res == (NoBlockedReport, st)
    ensures snapshot.Some? && |snapshot.value| > 0 && st.filter != 0 ==>
              var step := BlockedFiltered(snapshot.value, st.blockedPrev, allocOk);
              res.0 == BlockedLine(step.totals) && res.1.blockedPrev == step.prev
    // global mode draws the lifetime counts and keeps no snapshot
    ensures snapshot.Some? && |snapshot.value| > 0 && st.filter == 0 ==>
              res.0 == BlockedChart(Render(snapshot.value)) && res.1 == st
  {
    if snapshot.None? || |snapshot.value| == 0 then (NoBlockedReport, st)
    else if st.filter != 0 then
      var step := BlockedFiltered(snapshot.value, st.blockedPrev, allocOk);
      (BlockedLine(step.totals), st.(blockedPrev := step.prev))
    else
      (BlockedChart(Render(snapshot.value)), st)
  }

  /** Off-CPU counts are cumulative in global mode: reporting the same deltas in two
      consecutive intervals doubles every count instead of repeating the first chart. */
  lemma GlobalCountsAccumulate(ds: seq<nat>, b: nat)
    requires b <= MaxBucket(ds)
    ensures var first := RecordDeltas([], ds, true);
            var second := RecordDeltas(first, ds, true);
            |second| == |first| == MaxBucket(ds) + 1 && second[b] == 2 * first[b]
  {
  }
}

=== FILE: histogram.dfy ===
/** The log2 bar-chart renderer that print_off_cpu_histogram and print_blocked_histogram
    both spell out: rows up to the last non-zero bucket, capped at bucket 21, a synthetic
    "infinity" row for everything beyond, and 40-character bars scaled to the largest
    displayed count. Text formatting of the numbers is not modelled; a row keeps its
    bounds, its count and its bar. */
module Histogram {
  import opened Bits
  import opened Sums
  import opened Wrappers

  /** The last bucket shown as a row of its own. */
  const CapBucket: nat := 21

  const BarWidth: nat := 40

  /** The lower display bound of the infinity row: 2^22 - 1, the upper bound of bucket 21. */
  const InfinityLower: nat := 4194303

  datatype Row = Row(lower: nat, upper: nat, count: nat, bar: string)

  datatype Tail = Tail(lower: nat, count: nat, bar: string)

  datatype Chart = Chart(rows: seq<Row>, tail: Option<Tail>)

  /** The smallest microsecond value of bucket b: 0 for bucket 0, 2^b otherwise. */
  function BucketLower(b: nat): nat {
    if b == 0 then 0 else Pow2(b)
  }

  /** The largest microsecond value of bucket b: 2^(b+1) - 1. */
  function BucketUpper(b: nat): nat {
    Pow2(b + 1) - 1
  }

  /** A row's label is exactly the set of values that floor-log2 bucketing sends to it. */
  lemma BucketLabelsMatchBucketing(v: nat, b: nat)
    ensures FloorLog2(v) == b <==> BucketLower(b) <= v <= BucketUpper(b)
  {
    if b > 0 && Pow2(b) <= v < Pow2(b + 1) {
      FloorLog2Unique(v, b);
    }
    if b == 0 && v <= 1 {
      assert FloorLog2(v) == 0;
    }
  }

  /** The infinity row starts where the last capped row ends. */
  lemma InfinityLowerIsCapUpper()
    ensures InfinityLower == BucketUpper(CapBucket)
  {
    assert Pow2(11) == 2048;
    Pow2Add(11, 11);
  }

  /** The index of the last non-zero bucket, 0 when every bucket is zero. */
  function LastNonzero(counts: seq<nat>): (r: nat)
    ensures |counts| > 0 ==> r < |counts|
    ensures r > 0 ==> r < |counts| && counts[r] != 0
    ensures forall b :: r < b < |counts| ==> counts[b] == 0
    decreases |counts|
  {
    if |counts| == 0 then 0
    else if counts[|counts| - 1] != 0 then |counts| - 1
    else LastNonzero(counts[..|counts| - 1])
  }

  /** The last bucket drawn as its own row. */
  function EndBucket(counts: seq<nat>): nat {
    var last := LastNonzero(counts);
    if last < CapBucket then last else CapBucket
  }

  /** The count of the infinity row: everything beyond bucket 21, when anything is there. */
  function InfinityCount(counts: seq<nat>): nat {
    if LastNonzero(counts) > CapBucket then SeqSum(counts[CapBucket + 1..]) else 0
  }

  /** The largest element, 0 for the empty sequence. */
  function MaxOf(s: seq<nat>): (r: nat)
    ensures forall i :: 0 <= i < |s| ==> s[i] <= r
    ensures |s| == 0 ==> r == 0
    ensures |s| > 0 ==> exists i :: 0 <= i < |s| && s[i] == r
    decreases |s|
  {
    if |s| == 0 then 0
    else
      var m := MaxOf(s[..|s| - 1]);
      if s[|s| - 1] > m then s[|s| - 1] else m
  }

  function Clamp(stars: int): (r: nat)
    ensures r <= BarWidth
  {
    if stars < 0 then 0 else if stars > BarWidth as int then BarWidth else stars
  }

  /** The star count of a row: count / max * 40 rounded half up, clamped to [0, 40], and
      0 when nothing is displayed. The rounding is done exactly on integers. */
  function Stars(count: nat, max: nat): (r: nat)
    ensures r <= BarWidth
  {
    if max > 0 then Clamp((count * 2 * BarWidth + max) / (2 * max)) else 0
  }

  function Repeat(c: char, n: nat): (r: string)
    ensures |r| == n
    ensures forall i :: 0 <= i < n ==> r[i] == c
  {
    if n == 0 then [] else Repeat(c, n - 1) + [c]
  }

  /** A bar: '|', `stars` asterisks, spaces up to 40 characters, '|'. */
  function Bar(stars: nat): (r: string)
    requires stars <= BarWidth
    ensures |r| == BarWidth + 2
    ensures r[0] == '|' && r[BarWidth + 1] == '|'
    ensures forall i :: 1 <= i <= BarWidth ==> r[i] == if i <= stars then '*' else ' '
  {
    "|" + Repeat('*', stars) + Repeat(' ', BarWidth - stars) + "|"
  }

  /** The character loops that fill the bar buffer: asterisks while both the star count
      and the buffer allow, then spaces up to position 41, then the closing '|'. Whatever
      integer it is given, the bar it builds has the clamped number of stars. */
  method BuildBar(stars: int) returns (bar: string)
    ensures bar == Bar(Clamp(stars))
  {
    bar := "|";
    var pos := 1;
    var i := 0;
    while i < stars && pos < BarWidth + 1
      invariant pos == i + 1
      invariant 0 <= i <= Clamp(stars)
      invariant bar == "|" + Repeat('*', i)
    {
      bar := bar + "*";
      pos := pos + 1;
      i := i + 1;
    }
    assert i == Clamp(stars);
    while pos < BarWidth + 1
      invariant i + 1 <= pos <= BarWidth + 1
      invariant bar == "|" + Repeat('*', i) + Repeat(' ', pos - 1 - i)
    {
      bar := bar + " ";
      pos := pos + 1;
    }
    bar := bar + "|";
  }

  /** The largest count on display: over the drawn rows and the infinity row. */
  function MaxCount(counts: seq<nat>): nat
    requires |counts| > 0
  {
    var end := EndBucket(counts);
    var inf := InfinityCount(counts);
    var m := MaxOf(counts[..end + 1]);
    if inf > m then inf else m
  }

  /** The drawn rows for buckets 0..end, scaled to `max`. */
  function Rows(counts: seq<nat>, end: nat, max: nat): (rows: seq<Row>)
    requires end < |counts|
    ensures |rows| == end + 1
    ensures forall b :: 0 <= b < |rows| ==>
              rows[b] == Row(BucketLower(b), BucketUpper(b), counts[b], Bar(Stars(counts[b], max)))
  {
    seq(end + 1, b requires 0 <= b <= end => Row(BucketLower(b), BucketUpper(b), counts[b], Bar(Stars(counts[b], max))))
  }

  /** The scale is at least every drawn count and the infinity count. */
  lemma MaxCountBounds(counts: seq<nat>)
    requires |counts| > 0
    ensures forall b :: 0 <= b <= EndBucket(counts) ==> counts[b] <= MaxCount(counts)
    ensures InfinityCount(counts) <= MaxCount(counts)
  {
    var end := EndBucket(counts);
    var prefix := counts[..end + 1];
    forall b | 0 <= b <= end
      ensures counts[b] <= MaxCount(counts)
    {
      assert prefix[b] == counts[b];
    }
  }

  /** The infinity count is positive exactly when some bucket beyond 21 is non-zero. */
  lemma InfinityCountPositive(counts: seq<nat>)
    ensures InfinityCount(counts) > 0 <==> LastNonzero(counts) > CapBucket
  {
    var last := LastNonzero(counts);
    if last > CapBucket {
      SeqSumBoundsElement(counts[CapBucket + 1..], last - (CapBucket + 1));
    }
  }

  /** The chart for a bucket array. The off-CPU and blocked renderers share it. */
  function Render(counts: seq<nat>): (r: Chart)
    requires |counts| > 0
    // rows run from bucket 0 to the last non-zero bucket, never past bucket 21
    ensures |r.rows| == EndBucket(counts) + 1 <= CapBucket + 1
    ensures forall b :: 0 <= b < |r.rows| ==>
              && r.rows[b].count == counts[b]
              && r.rows[b].lower == BucketLower(b)
              && r.rows[b].upper == BucketUpper(b)
              && r.rows[b].bar == Bar(Stars(counts[b], MaxCount(counts)))
    // the infinity row appears exactly when a bucket beyond 21 is non-zero, and sums them
    ensures r.tail.Some? <==> LastNonzero(counts) > CapBucket
    ensures r.tail.Some? ==>
              && r.tail.value.count == SeqSum(counts[CapBucket + 1..]) > 0
              && r.tail.value.lower == InfinityLower
              && r.tail.value.bar == Bar(Stars(r.tail.value.count, MaxCount(counts)))
    // the scale is at least every displayed count
    ensures forall b :: 0 <= b < |r.rows| ==> r.rows[b].count <= MaxCount(counts)
    ensures r.tail.Some? ==> r.tail.value.count <= MaxCount(counts)
  {
    var mx := MaxCount(counts);
    var rows := Rows(counts, EndBucket(counts), mx);
    var inf := InfinityCount(counts);
    MaxCountBounds(counts);
    InfinityCountPositive(counts);
    if inf > 0 then Chart(rows, Some(Tail(InfinityLower, inf, Bar(Stars(inf, mx)))))
    else Chart(rows, None)
  }

  /** The counts shown in a chart's rows, in order. */
  function ShownCounts(c: Chart): seq<nat> {
    seq(|c.rows|, i requires 0 <= i < |c.rows| => c.rows[i].count)
  }

  /** The count on the infinity row, 0 when there is none. */
  function TailCount(c: Chart): nat {
    if c.tail.Some? then c.tail.value.count else 0
  }

  /** The counts shown by a chart, rows then infinity row. */
  function Displayed(c: Chart): nat {
    SeqSum(ShownCounts(c)) + TailCount(c)
  }

  /** The rows show exactly the buckets up to the end bucket. */
  lemma RowsShowPrefix(counts: seq<nat>)
    requires |counts| > 0
    ensures ShownCounts(Render(counts)) == counts[..EndBucket(counts) + 1]
  {
    var r := Render(counts);
    var shown := ShownCounts(r);
    forall i | 0 <= i < |shown|
      ensures shown[i] == counts[..EndBucket(counts) + 1][i]
    {
      assert r.rows[i].count == counts[i];
    }
  }

  /** The infinity row shows exactly the buckets after the end bucket. */
  lemma TailShowsSuffix(counts: seq<nat>)
    requires |counts| > 0
    ensures TailCount(Render(counts)) == SeqSum(counts[EndBucket(counts) + 1..])
  {
    var r := Render(counts);
    var end := EndBucket(counts);
    if LastNonzero(counts) <= CapBucket {
      assert r.tail.None?;
      var rest := counts[end + 1..];
      forall i | 0 <= i < |rest|
        ensures rest[i] == 0
      {
        assert counts[end + 1 + i] == 0;
      }
      SeqSumZeros(rest);
    } else {
      assert end == CapBucket;
    }
  }

  /** Nothing is lost to the cap: the counts on display add up to the total of all buckets. */
  lemma RenderConservesCounts(counts: seq<nat>)
    requires |counts| > 0
    ensures Displayed(Render(counts)) == SeqSum(counts)
  {
    RowsShowPrefix(counts);
    TailShowsSuffix(counts);
    SeqSumSplit(counts, EndBucket(counts) + 1);
  }

  /** Multiplying both sides of x <= y by the same natural keeps the order. */
  lemma MulMonotone(x: int, y: int, d: nat)
    ensures x <= y ==> x * d <= y * d
  {
    if x <= y {
      assert y * d == x * d + (y - x) * d;
    }
  }

  /** n / d is the a with a*d <= n < (a+1)*d. */
  lemma DivBetween(n: nat, d: nat, a: nat)
    requires d > 0 && a * d <= n < a * d + d
    ensures n / d == a
  {
    var q := n / d;
    assert n == q * d + n % d;
    assert (q + 1) * d == q * d + d;
    assert (a + 1) * d == a * d + d;
    MulMonotone(q + 1, a, d);
    MulMonotone(a + 1, q, d);
  }

  lemma DivMonotone(n1: nat, n2: nat, d: nat)
    requires d > 0 && n1 <= n2
    ensures n1 / d <= n2 / d
  {
    var q1, q2 := n1 / d, n2 / d;
    assert n1 == q1 * d + n1 % d;
    assert n2 == q2 * d + n2 % d;
    assert (q2 + 1) * d == q2 * d + d;
    MulMonotone(q2 + 1, q1, d);
  }

  /** The largest displayed count fills the bar; a zero count draws no star; more counts
      never draw fewer stars. */
  lemma StarsScale(count: nat, other: nat, max: nat)
    requires max > 0
    ensures Stars(max, max) == BarWidth
    ensures Stars(0, max) == 0
    ensures count <= other ==> Stars(count, max) <= Stars(other, max)
  {
    DivBetween(max * 2 * BarWidth + max, 2 * max, BarWidth);
    DivBetween(0 * 2 * BarWidth + max, 2 * max, 0);
    if count <= other {
      DivMonotone(count * 2 * BarWidth + max, other * 2 * BarWidth + max, 2 * max);
    }
  }

  /** When anything is displayed, the row (or infinity row) holding the largest count
      draws a full bar of 40 stars. */
  lemma LargestCountFillsBar(counts: seq<nat>)
    requires |counts| > 0
    requires MaxCount(counts) > 0
    ensures var r := Render(counts);
            (exists b :: 0 <= b < |r.rows| && r.rows[b].bar == Bar(BarWidth))
            || (r.tail.Some? && r.tail.value.bar == Bar(BarWidth))
  {
    var r := Render(counts);
    var mx := MaxCount(counts);
    var end := EndBucket(counts);
    var inf := InfinityCount(counts);
    StarsScale(0, 0, mx);
    InfinityCountPositive(counts);
    if inf > MaxOf(counts[..end + 1]) {
      assert r.tail.value.bar == Bar(BarWidth);
    } else {
      var i :| 0 <= i < end + 1 && counts[..end + 1][i] == mx;
      assert r.rows[i].bar == Bar(BarWidth);
    }
  }

  /** An all-zero array draws one row, bucket 0..1 with count 0 and an empty bar, and no
      infinity row. */
  lemma AllZeroRendersEmptyBar(counts: seq<nat>)
    requires |counts| > 0
    requires forall b :: 0 <= b < |counts| ==> counts[b] == 0
    ensures Render(counts) == Chart([Row(0, 1, 0, Bar(0))], None)
  {
    assert LastNonzero(counts) == 0;
    var r := Render(counts);
    assert |r.rows| == 1;
    assert r.rows[0] == Row(0, 1, 0, Bar(0));
  }

  /** Counts only beyond bucket 21 draw rows 0..21 with zero counts and empty bars, and a
      single infinity row holding their sum. */
  lemma BeyondCapRendersInfinityOnly(counts: seq<nat>)
    requires |counts| > CapBucket + 1
    requires forall b :: 0 <= b <= CapBucket ==> counts[b] == 0
    requires exists b :: CapBucket < b < |counts| && counts[b] != 0
    ensures var r := Render(counts);
            && |r.rows| == CapBucket + 1
            && (forall b :: 0 <= b < |r.rows| ==> r.rows[b].count == 0 && r.rows[b].bar == Bar(0))
            && r.tail.Some?
            && r.tail.value.count == SeqSum(counts[CapBucket + 1..])
            && r.tail.value.bar == Bar(BarWidth)
  {
    var b :| CapBucket < b < |counts| && counts[b] != 0;
    assert LastNonzero(counts) > CapBucket;
    var mx := MaxCount(counts);
    var shown := counts[..CapBucket + 1];
    assert forall i :: 0 <= i < |shown| ==> shown[i] == 0;
    assert MaxOf(shown) == 0;
    InfinityCountPositive(counts);
    StarsScale(0, 0, mx);
  }
}

=== FILE: offcpu_report.dfy ===
/** The off-CPU half of the interval report of cpu_analyzer.c (print_off_cpu_histogram):
    in single-process mode the aggregate totals are drained into one interval figure and a
    running total; in global mode every recorded delta is bucketed into a count array that
    persists across reports, which is then drawn by the shared renderer. In both modes the
    aggregate table is empty afterwards. */
module OffcpuReport {
  import opened Bits
  import opened Sums
  import opened Wrappers
  import opened Aggregator
  import opened Histogram

  /** The histogram bucket of an off-CPU delta: ⌊log2⌋ of its microseconds, 0 up to 1 µs.
      Unlike the kernel side there is no upper clamp. */
  function OffcpuBucket(deltaNs: nat): nat {
    FloorLog2(deltaNs / NsPerUs)
  }

  /** The bucketing loop of the renderer: halve the microsecond value until it is at most 1,
      counting the halvings. */
  method BucketIndex(deltaNs: nat) returns (idx: nat)
    ensures idx == OffcpuBucket(deltaNs)
    ensures deltaNs / NsPerUs <= 1 ==> idx == 0
    ensures deltaNs / NsPerUs >= 1 ==> Pow2(idx) <= deltaNs / NsPerUs < Pow2(idx + 1)
  {
    var us: nat := deltaNs / NsPerUs;
    idx := 0;
    if us > 1 {
      var v: nat := us;
      while v > 1
        invariant FloorLog2(us) == idx + FloorLog2(v)
        decreases v
      {
        v := v / 2;
        idx := idx + 1;
      }
    }
  }

  /** The largest bucket among `ds`, 0 when there are none. */
  function MaxBucket(ds: seq<nat>): (r: nat)
    ensures forall i :: 0 <= i < |ds| ==> OffcpuBucket(ds[i]) <= r
    ensures |ds| > 0 ==> exists i :: 0 <= i < |ds| && OffcpuBucket(ds[i]) == r
    ensures |ds| == 0 ==> r == 0
    decreases |ds|
  {
    if |ds| == 0 then 0
    else
      var m := MaxBucket(ds[..|ds| - 1]);
      var b := OffcpuBucket(ds[|ds| - 1]);
      if b > m then b else m
  }

  /** How many of `ds` fall in bucket b. */
  function CountIn(ds: seq<nat>, b: nat): nat
    decreases |ds|
  {
    if |ds| == 0 then 0
    else CountIn(ds[..|ds| - 1], b) + (if OffcpuBucket(ds[|ds| - 1]) == b then 1 else 0)
  }

  /** How many of `ds` fall in a bucket below n. */
  function CountBelow(ds: seq<nat>, n: nat): nat
    decreases |ds|
  {
    if |ds| == 0 then 0
    else CountBelow(ds[..|ds| - 1], n) + (if OffcpuBucket(ds[|ds| - 1]) < n then 1 else 0)
  }

  lemma {:induction false} CountBelowAll(ds: seq<nat>, n: nat)
    requires forall i :: 0 <= i < |ds| ==> OffcpuBucket(ds[i]) < n
    ensures CountBelow(ds, n) == |ds|
    decreases |ds|
  {
    if |ds| > 0 {
      CountBelowAll(ds[..|ds| - 1], n);
    }
  }

  /** The increment loop: each delta adds one to its bucket when the array reaches it. */
  function Tally(counts: seq<nat>, ds: seq<nat>): (r: seq<nat>)
    ensures |r| == |counts|
    ensures forall b :: 0 <= b < |r| ==> r[b] == counts[b] + CountIn(ds, b)
    ensures SeqSum(r) == SeqSum(counts) + CountBelow(ds, |counts|)
    decreases |ds|
  {
    if |ds| == 0 then counts
    else
      var c := Tally(counts, ds[..|ds| - 1]);
      var idx := OffcpuBucket(ds[|ds| - 1]);
      if idx < |c| then
        SeqSumIncrement(c, idx);
        c[idx := c[idx] + 1]
      else c
  }

  /** Extend the count array with zeroed buckets up to `needed`; `growOk` says whether the
      realloc succeeds. A failed growth keeps the old array. */
  function Grow(counts: seq<nat>, needed: nat, growOk: bool): (r: seq<nat>)
    ensures needed > |counts| && growOk ==> |r| == needed
    ensures !(needed > |counts| && growOk) ==> r == counts
    ensures forall b :: 0 <= b < |counts| ==> r[b] == counts[b]
    ensures forall b :: |counts| <= b < |r| ==> r[b] == 0
    ensures SeqSum(r) == SeqSum(counts)
  {
    if needed > |counts| && growOk then
      var zeros := seq(needed - |counts|, _ => 0);
      SeqSumSplit(counts + zeros, |counts|);
      assert (counts + zeros)[..|counts|] == counts;
      assert (counts + zeros)[|counts|..] == zeros;
      SeqSumZeros(zeros);
      counts + zeros
    else counts
  }

  /** The global-mode update of the persistent count array from one interval's deltas:
      grow it to reach the largest bucket, then add one per delta. The array is never
      reset, so the counts accumulate over the whole run. */
  function RecordDeltas(counts: seq<nat>, ds: seq<nat>, growOk: bool): (r: seq<nat>)
    ensures |r| == if MaxBucket(ds) + 1 > |counts| && growOk then MaxBucket(ds) + 1 else |counts|
    ensures forall b :: 0 <= b < |r| ==> r[b] == (if b < |counts| then counts[b] else 0) + CountIn(ds, b)
    // counts only grow: earlier intervals stay in the histogram
    ensures forall b :: 0 <= b < |counts| ==> counts[b] <= r[b]
    // when the array reaches every bucket, each delta adds exactly one to the total
    ensures MaxBucket(ds) < |r| ==> SeqSum(r) == SeqSum(counts) + |ds|
  {
    var grown := Grow(counts, MaxBucket(ds) + 1, growOk);
    var r := Tally(grown, ds);
    if MaxBucket(ds) < |grown| then
      CountBelowAll(ds, |grown|);
      r
    else r
  }

  /** The single-process drain: add up and discard every entry, and fold the interval
      figure into the running total. */
  method DrainFiltered(t: AggTable, running: nat) returns (intervalNs: nat, runningNs: nat, rest: AggTable)
    ensures intervalNs == TotalOf(t)
    ensures runningNs == running + intervalNs
    ensures rest == EmptyTable
  {
    intervalNs := 0;
    var i := 0;
    while i < |t.order|
      invariant 0 <= i <= |t.order|
      invariant intervalNs == SumTotals(t.order[..i], t.entries)
    {
      assert t.order[..i + 1] == t.order[..i] + [t.order[i]];
      SumTotalsAppend(t.order[..i], t.order[i], t.entries);
      intervalNs := intervalNs + EntryTotal(t.entries, t.order[i]);
      i := i + 1;
    }
    assert t.order[..i] == t.order;
    runningNs := running + intervalNs;
    rest := EmptyTable;
  }

  /** The indices of the count array that the max-count and row loops read as written:
      buckets 0 through the end bucket, read whether or not the array has any slots. */
  function RowReadsAsWritten(counts: seq<nat>): (idxs: seq<nat>)
    ensures |idxs| == EndBucket(counts) + 1 >= 1
    ensures forall i :: 0 <= i < |idxs| ==> idxs[i] == i
    // on a non-empty array these are exactly the slots the drawn rows show, in order
    ensures |counts| > 0 ==> |idxs| == |Render(counts).rows|
    ensures |counts| > 0 ==> forall i :: 0 <= i < |idxs| ==>
              idxs[i] < |counts| && Render(counts).rows[i].count == counts[idxs[i]]
  {
    seq(EndBucket(counts) + 1, i => i)
  }

  /** When the very first global-mode report cannot allocate the count array, the array
      stays empty and the row loops still read bucket 0 of it. */
  lemma FailedFirstGrowthReadsPastEnd(ds: seq<nat>)
    ensures var counts := RecordDeltas([], ds, false);
            |counts| == 0 && 0 < |RowReadsAsWritten(counts)| && RowReadsAsWritten(counts)[0] >= |counts|
  {
  }

  /** The corrected off-CPU chart: nothing is drawn from an empty count array, as the
      blocked renderer already does for a zero-length map; otherwise the shared renderer. */
  function OffcpuChart(counts: seq<nat>): (r: Option<Chart>)
    ensures r.None? <==> |counts| == 0
    ensures r.Some? ==> r.value == Render(counts)
    ensures r.Some? ==> forall i :: 0 <= i < |RowReadsAsWritten(counts)| ==> RowReadsAsWritten(counts)[i] < |counts|
  {
    if |counts| == 0 then None else Some(Render(counts))
  }
}

=== FILE: profiler.dfy ===
/** Properties that join the kernel probe and the user-space consumer. */
module Profiler {
  import opened Bits
  import opened Wrappers
  import opened Histogram
  import opened OffcpuReport
  import opened BlockedReport
  import SchedProbe

  /** The kernel never lowers a blocked counter, so the single-process report's saturating
      difference between two snapshots taken around any run of scheduler events is exact:
      the interval figure is the growth of the lifetime figure. */
  lemma SnapshotDifferenceIsExact(p: SchedProbe.Probe, from: nat, evs: seq<SchedProbe.Event>, allocOk: bool)
    requires SchedProbe.Valid(p) && SchedProbe.StampsNotAfter(p, from) && SchedProbe.Chronological(evs, from)
    ensures var q := SchedProbe.Run(p, from, evs);
            var step := BlockedFiltered(q.blockedHist, Some(p.blockedHist), allocOk);
            step.totals.intervalUs + Weighted(p.blockedHist) == step.totals.runningUs
  {
    var q := SchedProbe.Run(p, from, evs);
    WeightedGrowth(q.blockedHist, p.blockedHist);
  }

  /** How many of `ds` fall in bucket b, when all of them are the same delta d. */
  lemma {:induction false} UniformCount(ds: seq<nat>, d: nat)
    requires forall i :: 0 <= i < |ds| ==> ds[i] == d
    ensures CountIn(ds, OffcpuBucket(d)) == |ds|
    decreases |ds|
  {
    if |ds| > 0 {
      UniformCount(ds[..|ds| - 1], d);
    }
  }

  /** A thread off CPU (and blocked) for 3 ms per cycle: 3000 µs lies in bucket 11, drawn
      as 2048 -> 4095, on both the kernel and the user side; ten such off-CPU samples in the
      first global report put 10 in that bucket. */
  lemma ThreeMillisecondCycles()
    ensures 3000 < U64Limit && SchedProbe.Log2U64(3000) == 11
    ensures FloorLog2(3000000 / NsPerUs) == 11
    ensures OffcpuBucket(3000000) == 11
    ensures BucketLower(11) == 2048 && BucketUpper(11) == 4095
    ensures RecordDeltas([], seq(10, _ => 3000000), true)[11] == 10
  {
    assert Pow2(11) == 2048;
    assert Pow2(12) == 4096;
    FloorLog2Unique(3000, 11);
    SchedProbe.Log2U64IsFloorLog2(3000);
    var ds := seq(10, _ => 3000000);
    UniformCount(ds, 3000000);
    assert MaxBucket(ds) == 11;
  }
}

=== FILE: resolver.dfy ===
/** The thread-to-process resolver of cpu_analyzer.c: a never-evicted cache from thread id
    to thread-group id, in front of a lookup of the "Tgid:" line of /proc/<tid>/status. */
module Resolver {
  import opened Wrappers

  /** A thread-group id read from /proc: the reader accepts only positive values. */
  type Pid = x: nat | x > 0 witness 1

  /** The /proc reader, as an oracle: the owning process of a thread, or None when the
      file cannot be opened or holds no positive Tgid. */
  type ProcLookup = nat -> Option<Pid>

  datatype Resolution = Resolution(tgid: nat, cache: map<nat, Pid>)

  /** What /proc says about `tid`, with 0 standing for "not found". */
  function OwnerOf(lookup: ProcLookup, tid: nat): nat {
    match lookup(tid)
    case Some(p) => p
    case None => 0
  }

  /** Every cached answer is the answer /proc gives. */
  predicate CacheAgrees(cache: map<nat, Pid>, lookup: ProcLookup) {
    forall t :: t in cache ==> lookup(t) == Some(cache[t])
  }

  /** resolve_tgid. `hint` is the tgid carried in the sample; `entryAlloc` says whether
      calloc of a new cache entry succeeds. */
  function ResolveTgid(cache: map<nat, Pid>, tid: nat, hint: nat, lookup: ProcLookup, entryAlloc: bool): (r: Resolution)
    // a non-zero hint wins and the cache is not consulted
    ensures hint != 0 ==> r.tgid == hint && r.cache == cache
    // a hit answers from the cache
    ensures hint == 0 && tid in cache ==> r.tgid == cache[tid] && r.cache == cache
    // a miss asks /proc; a found owner is cached (when the entry can be allocated)
    ensures hint == 0 && tid !in cache ==> r.tgid == OwnerOf(lookup, tid)
    ensures hint == 0 && tid !in cache && lookup(tid).Some? && entryAlloc ==> r.cache == cache[tid := lookup(tid).value]
    // a failed lookup is not cached, so the next sample for the thread asks again
    ensures lookup(tid).None? || !entryAlloc ==> r.cache == cache
  {
    if hint != 0 then Resolution(hint, cache)
    else if tid in cache then Resolution(cache[tid], cache)
    else
      match lookup(tid)
      case Some(tgid) => if entryAlloc then Resolution(tgid, cache[tid := tgid]) else Resolution(tgid, cache)
      case None => Resolution(0, cache)
  }

  /** The cache is transparent: as long as it agrees with /proc, resolving a sample without
      a hint yields exactly what /proc says, and the cache keeps agreeing. It only grows:
      no entry is ever evicted or changed. */
  lemma ResolveIsTransparent(cache: map<nat, Pid>, tid: nat, lookup: ProcLookup, entryAlloc: bool)
    requires CacheAgrees(cache, lookup)
    ensures var r := ResolveTgid(cache, tid, 0, lookup, entryAlloc);
            && r.tgid == OwnerOf(lookup, tid)
            && CacheAgrees(r.cache, lookup)
            && (forall t :: t in cache ==> t in r.cache && r.cache[t] == cache[t])
            && r.cache.Keys <= cache.Keys + {tid}
  {
  }

  /** Resolving the same thread twice: once the first resolution cached the thread, the
      second gives the same owner without consulting /proc, for any cache, including one
      left stale by a reused tid, since the cache is never evicted. A thread left uncached
      (the read failed, or no entry could be allocated) is read from /proc again, and
      `lookup2` may then answer differently from `lookup1`: the thread may have exited or
      its tid been reused in between. */
  lemma ResolveIsStable(cache: map<nat, Pid>, tid: nat, lookup1: ProcLookup, lookup2: ProcLookup, a1: bool, a2: bool)
    ensures var r1 := ResolveTgid(cache, tid, 0, lookup1, a1);
            var r2 := ResolveTgid(r1.cache, tid, 0, lookup2, a2);
            && (tid in r1.cache <==> tid in cache || (lookup1(tid).Some? && a1))
            && (tid in r1.cache ==> r2.tgid == r1.tgid && r2.cache == r1.cache)
            && (tid !in r1.cache ==> r2.tgid == OwnerOf(lookup2, tid))
            && (tid in cache ==> r1.tgid == cache[tid] && r1.cache == cache)
  {
  }
}

=== FILE: sched_probe.dfy ===
/** The kernel-resident probe of cpu_analyzer.bpf.c: two per-thread timestamp stores,
    the 64-bucket blocked-time histogram and the off-CPU sample ring buffer, driven by
    the sched_switch, sched_wakeup and sched_wakeup_new handlers. Each handler is one
    atomic transition of the probe state; the ring buffer is the sequence of samples
    submitted so far, and a failed reservation is an input flag. */
module SchedProbe {
  import opened Bits

  /** BLOCKED_HIST_BUCKETS: the length of the blocked_hist array map. */
  const HistBuckets: nat := 64

  /** One completed off-CPU interval, as submitted to the ring buffer. */
  datatype Sample = Sample(tid: nat, tgid: nat, t0: nat, t2: nat, delta: nat)

  /** offcpu_start and blocked_start map a thread id to the time it was switched out;
      presence of a key is the "off CPU" / "blocked" flag. */
  datatype Probe = Probe(
    offcpuStart: map<nat, nat>,
    blockedStart: map<nat, nat>,
    blockedHist: seq<nat>,
    ring: seq<Sample>)

  /** The array map always has exactly BLOCKED_HIST_BUCKETS slots. */
  predicate Valid(p: Probe) {
    |p.blockedHist| == HistBuckets
  }

  /** The probe at load time: both stores empty, every counter zero, nothing submitted. */
  function Initial(): (p: Probe)
    ensures Valid(p)
    ensures forall b :: 0 <= b < |p.blockedHist| ==> p.blockedHist[b] == 0
    ensures forall t :: t !in p.offcpuStart && t !in p.blockedStart
    ensures StampsNotAfter(p, 0)
  {
    Probe(map[], map[], seq(HistBuckets, _ => 0), [])
  }

  /** Every stored start time is no later than `now`, and `now` is a 64-bit clock value. */
  predicate StampsNotAfter(p: Probe, now: nat) {
    && now < U64Limit
    && (forall t :: t in p.offcpuStart ==> p.offcpuStart[t] <= now)
    && (forall t :: t in p.blockedStart ==> p.blockedStart[t] <= now)
  }

  /** A sample as the switch handler fills it: no owner yet, delta = end - start. */
  predicate WellFormed(s: Sample) {
    s.tgid == 0 && s.t0 <= s.t2 && s.delta == s.t2 - s.t0
  }

  /** log2_u64: the branchy binary search over 32/16/8/4/2/1-bit shifts. */
  function Log2U64(v: nat): nat
    requires v < U64Limit
  {
    var s1 := ShiftStep(v, 0, 32);
    var s2 := ShiftStep(s1.0, s1.1, 16);
    var s3 := ShiftStep(s2.0, s2.1, 8);
    var s4 := ShiftStep(s3.0, s3.1, 4);
    var s5 := ShiftStep(s4.0, s4.1, 2);
    if Shr(s5.0, 1) != 0 then s5.1 + 1 else s5.1
  }

  /** One conditional k-bit shift step of log2_u64: when anything is left above the low
      k bits, drop those bits and add k to the answer. */
  function ShiftStep(v: nat, r: nat, k: nat): (nat, nat) {
    if Shr(v, k) != 0 then (Shr(v, k), r + k) else (v, r)
  }

  /** One shift step keeps "answer = r + floor-log2 of what is left" and halves the width. */
  lemma ShiftStepKeeps(orig: nat, v: nat, r: nat, k: nat)
    requires FloorLog2(orig) == r + FloorLog2(v)
    requires v < Pow2(k + k)
    ensures FloorLog2(orig) == ShiftStep(v, r, k).1 + FloorLog2(ShiftStep(v, r, k).0)
    ensures ShiftStep(v, r, k).0 < Pow2(k)
  {
    if Shr(v, k) != 0 {
      FloorLog2Shr(v, k);
      ShrBelow(v, k, k);
    } else {
      ShrZeroBelow(v, k);
    }
  }

  /** log2_u64 computes ⌊log2 v⌋ (0 for v = 0), so its result never exceeds 63 and the
      clamp to the last histogram bucket never fires. */
  lemma Log2U64IsFloorLog2(v: nat)
    requires v < U64Limit
    ensures Log2U64(v) == FloorLog2(v)
    ensures Log2U64(v) < HistBuckets
  {
    Pow2Of64();
    var s1 := ShiftStep(v, 0, 32);
    ShiftStepKeeps(v, v, 0, 32);
    var s2 := ShiftStep(s1.0, s1.1, 16);
    ShiftStepKeeps(v, s1.0, s1.1, 16);
    var s3 := ShiftStep(s2.0, s2.1, 8);
    ShiftStepKeeps(v, s2.0, s2.1, 8);
    var s4 := ShiftStep(s3.0, s3.1, 4);
    ShiftStepKeeps(v, s3.0, s3.1, 4);
    var s5 := ShiftStep(s4.0, s4.1, 2);
    ShiftStepKeeps(v, s4.0, s4.1, 2);
    LastShiftStep(s5.0);
    FloorLog2Below(v, 64);
  }

  /** The last step of log2_u64, which adds one when the upper of the two remaining bits
      is set, adds the floor-log2 of those two bits. */
  lemma LastShiftStep(v: nat)
    requires v < Pow2(2)
    ensures FloorLog2(v) == if Shr(v, 1) != 0 then 1 else 0
  {
  }

  /** The blocked-histogram slot for a blocked interval, clamped as in the handlers. */
  function BlockedBucket(t0: nat, now: nat): (b: nat)
    requires t0 <= now < U64Limit
    ensures b == FloorLog2((now - t0) / NsPerUs)
    ensures b < HistBuckets
  {
    var deltaUs := (now - t0) / NsPerUs;
    var bucket := Log2U64(deltaUs);
    var clamped := if bucket >= HistBuckets then HistBuckets - 1 else bucket;
    Log2U64IsFloorLog2(deltaUs);
    clamped
  }

  /** handle_sched_switch: `prevTid` leaves the CPU and `nextTid` enters it at `now`;
      `reserved` says whether bpf_ringbuf_reserve found room. */
  function OnSwitch(p: Probe, now: nat, nextTid: nat, prevTid: nat, prevState: int, reserved: bool): (r: Probe)
    requires nextTid in p.offcpuStart ==> p.offcpuStart[nextTid] <= now
    // a sample is emitted exactly when nextTid was off CPU and the reservation succeeded
    ensures nextTid in p.offcpuStart && reserved ==>
              r.ring == p.ring + [Sample(nextTid, 0, p.offcpuStart[nextTid], now, now - p.offcpuStart[nextTid])]
    ensures !(nextTid in p.offcpuStart && reserved) ==> r.ring == p.ring
    // nextTid's off-CPU interval is closed whether or not the sample fit
    ensures nextTid != prevTid ==> nextTid !in r.offcpuStart
    // prevTid's off-CPU interval starts now, whatever was stored before
    ensures prevTid in r.offcpuStart && r.offcpuStart[prevTid] == now
    ensures forall t :: t != nextTid && t != prevTid ==>
              (t in r.offcpuStart <==> t in p.offcpuStart) &&
              (t in p.offcpuStart ==> r.offcpuStart[t] == p.offcpuStart[t])
    // a blocked interval starts only when the outgoing thread is going to sleep
    ensures prevState != 0 ==> r.blockedStart == p.blockedStart[prevTid := now]
    ensures prevState == 0 ==> r.blockedStart == p.blockedStart
    ensures r.blockedHist == p.blockedHist
    ensures StampsNotAfter(p, now) ==> StampsNotAfter(r, now)
  {
    var stamped := nextTid in p.offcpuStart;
    var ring :=
      if stamped && reserved then
        var t0 := p.offcpuStart[nextTid];
        p.ring + [Sample(nextTid, 0, t0, now, now - t0)]
      else p.ring;
    var offcpu := if stamped then p.offcpuStart - {nextTid} else p.offcpuStart;
    var blocked := if prevState != 0 then p.blockedStart[prevTid := now] else p.blockedStart;
    Probe(offcpu[prevTid := now], blocked, p.blockedHist, ring)
  }

  /** handle_sched_wakeup: `tid` becomes runnable at `now`. */
  function OnWakeup(p: Probe, tid: nat, now: nat): (r: Probe)
    requires Valid(p)
    requires now < U64Limit
    requires tid in p.blockedStart ==> p.blockedStart[tid] <= now
    ensures Valid(r)
    // a thread that was never marked blocked changes nothing
    ensures tid !in p.blockedStart ==> r == p
    // otherwise exactly one bucket, the one for ⌊log2 of the blocked microseconds⌋, gains one
    ensures tid in p.blockedStart ==>
              var b := FloorLog2((now - p.blockedStart[tid]) / NsPerUs);
              && b < HistBuckets
              && r.blockedHist == p.blockedHist[b := p.blockedHist[b] + 1]
              && r.blockedStart == p.blockedStart - {tid}
              && r.offcpuStart == p.offcpuStart
              && r.ring == p.ring
    ensures StampsNotAfter(p, now) ==> StampsNotAfter(r, now)
  {
    if tid !in p.blockedStart then p
    else
      var bucket := BlockedBucket(p.blockedStart[tid], now);
      var hist := p.blockedHist[bucket := p.blockedHist[bucket] + 1];
      p.(blockedHist := hist, blockedStart := p.blockedStart - {tid})
  }

  /** handle_sched_wakeup_new: the first wakeup of a newly created thread. Its body is a
      copy of handle_sched_wakeup, and it is the same transition. */
  function OnWakeupNew(p: Probe, tid: nat, now: nat): (r: Probe)
    requires Valid(p)
    requires now < U64Limit
    requires tid in p.blockedStart ==> p.blockedStart[tid] <= now
    ensures r == OnWakeup(p, tid, now)
  {
    if tid !in p.blockedStart then p
    else
      var bucket := BlockedBucket(p.blockedStart[tid], now);
      var hist := p.blockedHist[bucket := p.blockedHist[bucket] + 1];
      p.(blockedHist := hist, blockedStart := p.blockedStart - {tid})
  }

  /** One tracepoint firing, with the clock value the handler reads. */
  datatype Event =
    | Switch(now: nat, nextTid: nat, prevTid: nat, prevState: int, reserved: bool)
    | Wakeup(now: nat, tid: nat)
    | WakeupNew(now: nat, tid: nat)

  /** Stored start times that are not after `a` are not after any later clock value. */
  lemma StampsNotAfterLater(p: Probe, a: nat, b: nat)
    requires StampsNotAfter(p, a)
    requires a <= b < U64Limit
    ensures StampsNotAfter(p, b)
  {
  }

  /** The handler that the event's tracepoint runs. */
  function Step(p: Probe, e: Event): (r: Probe)
    requires Valid(p) && StampsNotAfter(p, e.now)
    ensures Valid(r) && StampsNotAfter(r, e.now)
    ensures |p.ring| <= |r.ring| <= |p.ring| + 1 && r.ring[..|p.ring|] == p.ring
    ensures forall b :: 0 <= b < HistBuckets ==> p.blockedHist[b] <= r.blockedHist[b]
  {
    match e
    case Switch(now, nextTid, prevTid, prevState, reserved) => OnSwitch(p, now, nextTid, prevTid, prevState, reserved)
    case Wakeup(now, tid) => OnWakeup(p, tid, now)
    case WakeupNew(now, tid) => OnWakeupNew(p, tid, now)
  }

  /** Event times never go backwards, start no earlier than `from` and fit the 64-bit clock. */
  predicate Chronological(evs: seq<Event>, from: nat) {
    && (forall i :: 0 <= i < |evs| ==> from <= evs[i].now < U64Limit)
    && (forall i, j :: 0 <= i < j < |evs| ==> evs[i].now <= evs[j].now)
  }

  /** The probe after handling `evs` in order. The ring only grows, by at most one sample
      per event; every submitted sample is well formed; blocked counters never decrease. */
  function Run(p: Probe, from: nat, evs: seq<Event>): (r: Probe)
    requires Valid(p) && StampsNotAfter(p, from) && Chronological(evs, from)
    ensures Valid(r)
    ensures |p.ring| <= |r.ring| <= |p.ring| + |evs| && r.ring[..|p.ring|] == p.ring
    ensures (forall i :: 0 <= i < |p.ring| ==> WellFormed(p.ring[i])) ==>
              forall i :: 0 <= i < |r.ring| ==> WellFormed(r.ring[i])
    ensures forall b :: 0 <= b < HistBuckets ==> p.blockedHist[b] <= r.blockedHist[b]
    decreases |evs|
  {
    if |evs| == 0 then p
    else
      StampsNotAfterLater(p, from, evs[0].now);
      var q := Step(p, evs[0]);
      assert Chronological(evs[1..], evs[0].now);
      assert forall i :: 0 <= i < |p.ring| ==> q.ring[i] == p.ring[i];
      assert forall i :: |p.ring| <= i < |q.ring| ==> WellFormed(q.ring[i]);
      Run(q, evs[0].now, evs[1..])
  }

  /** How many samples in `ring` belong to thread t. */
  function SamplesOf(ring: seq<Sample>, t: nat): nat
    decreases |ring|
  {
    if |ring| == 0 then 0 else (if ring[0].tid == t then 1 else 0) + SamplesOf(ring[1..], t)
  }

  lemma {:induction false} SamplesOfAppend(a: seq<Sample>, b: seq<Sample>, t: nat)
    ensures SamplesOf(a + b, t) == SamplesOf(a, t) + SamplesOf(b, t)
    decreases |a|
  {
    if |a| > 0 {
      assert (a + b)[1..] == a[1..] + b;
      SamplesOfAppend(a[1..], b, t);
    } else {
      assert a + b == b;
    }
  }

  /** The samples of t added over two successive extensions of a ring. */
  lemma SamplesOfExtension(a: seq<Sample>, b: seq<Sample>, c: seq<Sample>, t: nat)
    requires |a| <= |b| <= |c| && c[..|b|] == b
    ensures SamplesOf(c[|a|..], t) == SamplesOf(b[|a|..], t) + SamplesOf(c[|b|..], t)
  {
    assert c[|a|..] == b[|a|..] + c[|b|..];
    SamplesOfAppend(b[|a|..], c[|b|..], t);
  }

  /** Whether thread t is switched out after event e, read off the event alone: a
      switch-out of t marks it, a switch-in of t clears it, anything else leaves it. */
  function StampedAfter(e: Event, t: nat, stamped: bool): bool {
    match e
    case Switch(_, nextTid, prevTid, _, _) => prevTid == t || (nextTid != t && stamped)
    case _ => stamped
  }

  /** Whether event e is a switch-in of t that follows a switch-out of t and finds room
      in the ring buffer. */
  predicate ReportedSwitchIn(e: Event, t: nat, stamped: bool) {
    e.Switch? && e.nextTid == t && stamped && e.reserved
  }

  /** Read off the events alone: the switch-ins of thread t that follow a switch-out of t
      (`stamped` says whether t starts out switched out) and whose reservation succeeds. */
  function SwitchInsAfterOut(evs: seq<Event>, t: nat, stamped: bool): nat
    decreases |evs|
  {
    if |evs| == 0 then 0
    else
      (if ReportedSwitchIn(evs[0], t, stamped) then 1 else 0)
        + SwitchInsAfterOut(evs[1..], t, StampedAfter(evs[0], t, stamped))
  }

  /** One handler submits a sample of t exactly for a reported switch-in of t, and leaves t
      switched out exactly as the event says. */
  lemma StepSamples(p: Probe, e: Event, t: nat)
    requires Valid(p) && StampsNotAfter(p, e.now)
    ensures var q := Step(p, e);
            && SamplesOf(q.ring[|p.ring|..], t) == (if ReportedSwitchIn(e, t, t in p.offcpuStart) then 1 else 0)
            && (t in q.offcpuStart) == StampedAfter(e, t, t in p.offcpuStart)
  {
    var q := Step(p, e);
    match e
    case Switch(now, nextTid, prevTid, prevState, reserved) =>
      if nextTid in p.offcpuStart && reserved {
        assert q.ring[|p.ring|..] == [q.ring[|p.ring|]];
        assert q.ring[|p.ring|].tid == nextTid;
        assert SamplesOf(q.ring[|p.ring|..], t) == if nextTid == t then 1 else 0;
      } else {
        assert q.ring[|p.ring|..] == [];
      }
    case Wakeup(now, tid) =>
      assert q.ring[|p.ring|..] == [];
    case WakeupNew(now, tid) =>
      assert q.ring[|p.ring|..] == [];
  }

  /** Per thread, the samples a trace submits are exactly its switch-ins that follow a
      switch-out of the same thread and find room in the ring buffer. */
  lemma {:induction false} RunSamplesPerThread(p: Probe, from: nat, evs: seq<Event>, t: nat)
    requires Valid(p) && StampsNotAfter(p, from) && Chronological(evs, from)
    ensures var r := Run(p, from, evs);
            SamplesOf(r.ring[|p.ring|..], t) == SwitchInsAfterOut(evs, t, t in p.offcpuStart)
    decreases |evs|
  {
    if |evs| > 0 {
      var e, rest := evs[0], evs[1..];
      StampsNotAfterLater(p, from, e.now);
      var q := Step(p, e);
      assert Chronological(rest, e.now);
      var r := Run(q, e.now, rest);
      assert Run(p, from, evs) == r;
      StepSamples(p, e, t);
      RunSamplesPerThread(q, e.now, rest, t);
      SamplesOfExtension(p.ring, q.ring, r.ring, t);
    } else {
      assert Run(p, from, evs).ring[|p.ring|..] == [];
    }
  }

  /** Every switch in the trace finds room in the ring buffer. */
  predicate AllReserved(evs: seq<Event>) {
    forall i :: 0 <= i < |evs| && evs[i].Switch? ==> evs[i].reserved
  }

  /** The switch-ins of thread t that follow a switch-out of t, whatever the ring buffer. */
  function PairedSwitchIns(evs: seq<Event>, t: nat, stamped: bool): nat
    decreases |evs|
  {
    if |evs| == 0 then 0
    else
      (if evs[0].Switch? && evs[0].nextTid == t && stamped then 1 else 0)
        + PairedSwitchIns(evs[1..], t, StampedAfter(evs[0], t, stamped))
  }

  lemma {:induction false} ReservedSwitchInsArePaired(evs: seq<Event>, t: nat, stamped: bool)
    requires AllReserved(evs)
    ensures SwitchInsAfterOut(evs, t, stamped) == PairedSwitchIns(evs, t, stamped)
    decreases |evs|
  {
    if |evs| > 0 {
      assert AllReserved(evs[1..]) by {
        forall i | 0 <= i < |evs[1..]| && evs[1..][i].Switch?
          ensures evs[1..][i].reserved
        {
          assert evs[1..][i] == evs[i + 1];
        }
      }
      assert evs[0].Switch? ==> evs[0].reserved;
      ReservedSwitchInsArePaired(evs[1..], t, StampedAfter(evs[0], t, stamped));
    }
  }

  /** With every reservation succeeding, each thread gets exactly one sample per switch-in
      that follows its switch-out: none lost, none invented. */
  lemma ReservedTraceSamplesPerThread(p: Probe, from: nat, evs: seq<Event>, t: nat)
    requires Valid(p) && StampsNotAfter(p, from) && Chronological(evs, from)
    requires AllReserved(evs)
    ensures var r := Run(p, from, evs);
            SamplesOf(r.ring[|p.ring|..], t) == PairedSwitchIns(evs, t, t in p.offcpuStart)
  {
    RunSamplesPerThread(p, from, evs, t);
    ReservedSwitchInsArePaired(evs, t, t in p.offcpuStart);
  }

  /** A thread that is preempted (previous state 0) and later switched back in produces
      one off-CPU sample when the ring has room, and nothing in the blocked histogram. */
  lemma PreemptedThreadIsNeverBlocked(p: Probe, tid: nat, other: nat, next: nat, t: nat, w: nat, ok1: bool, ok2: bool)
    requires Valid(p) && StampsNotAfter(p, t) && t <= w < U64Limit
    requires tid !in p.blockedStart && other != tid && next != tid
    ensures var s1 := OnSwitch(p, t, other, tid, 0, ok1);
            var s2 := OnSwitch(s1, w, tid, next, 0, ok2);
            && (ok2 ==> s2.ring == s1.ring + [Sample(tid, 0, t, w, w - t)])
            && (!ok2 ==> s2.ring == s1.ring)
            && tid !in s2.offcpuStart
            && OnWakeup(s2, tid, w) == s2
            && s2.blockedHist == p.blockedHist
  {
    var s1 := OnSwitch(p, t, other, tid, 0, ok1);
    assert tid !in s1.blockedStart;
  }

  /** A thread switched out to sleep at t and woken at w adds exactly one to the bucket of
      ⌊log2((w - t) / 1000)⌋ and is no longer marked blocked; it stays off CPU until it is
      switched back in. */
  lemma BlockedThreadCountedOnce(p: Probe, tid: nat, next: nat, state: int, t: nat, w: nat, ok: bool)
    requires Valid(p) && StampsNotAfter(p, t) && t <= w < U64Limit
    requires state != 0 && next != tid
    ensures var s1 := OnSwitch(p, t, next, tid, state, ok);
            var s2 := OnWakeup(s1, tid, w);
            var b := FloorLog2((w - t) / NsPerUs);
            && b < HistBuckets
            && s2.blockedHist == p.blockedHist[b := p.blockedHist[b] + 1]
            && tid !in s2.blockedStart
            && tid in s2.offcpuStart && s2.offcpuStart[tid] == t
  {
    var s1 := OnSwitch(p, t, next, tid, state, ok);
    assert s1.blockedStart == p.blockedStart[tid := t];
    assert s1.blockedHist == p.blockedHist;
    assert s1.offcpuStart[tid] == t;
    var s2 := OnWakeup(s1, tid, w);
    assert s2.offcpuStart == s1.offcpuStart;
  }
}

=== FILE: sums.dfy ===
/** Sums of natural-number sequences, used by the aggregator totals and the histograms. */
module Sums {

  /** The sum of `s`, adding elements from the front. */
  function SeqSum(s: seq<nat>): nat
    decreases |s|
  {
    if |s| == 0 then 0 else SeqSum(s[..|s| - 1]) + s[|s| - 1]
  }

  lemma SeqSumAppend(s: seq<nat>, x: nat)
    ensures SeqSum(s + [x]) == SeqSum(s) + x
  {
    assert (s + [x])[..|s|] == s;
  }

  /** A sum splits at any index into the sums of the two halves. */
  lemma {:induction false} SeqSumSplit(s: seq<nat>, k: nat)
    requires k <= |s|
    ensures SeqSum(s) == SeqSum(s[..k]) + SeqSum(s[k..])
    decreases |s|
  {
    if k < |s| {
      var init := s[..|s| - 1];
      SeqSumSplit(init, k);
      assert s[..k] == init[..k];
      assert s[k..] == init[k..] + [s[|s| - 1]];
      SeqSumAppend(init[k..], s[|s| - 1]);
    } else {
      assert s[..k] == s;
      assert s[k..] == [];
    }
  }

  /** A sequence of zeros sums to zero. */
  lemma {:induction false} SeqSumZeros(s: seq<nat>)
    requires forall i :: 0 <= i < |s| ==> s[i] == 0
    ensures SeqSum(s) == 0
    decreases |s|
  {
    if |s| > 0 {
      SeqSumZeros(s[..|s| - 1]);
    }
  }

  /** Every element is at most the sum. */
  lemma {:induction false} SeqSumBoundsElement(s: seq<nat>, i: nat)
    requires i < |s|
    ensures s[i] <= SeqSum(s)
    decreases |s|
  {
    if i < |s| - 1 {
      SeqSumBoundsElement(s[..|s| - 1], i);
    }
  }

  /** Adding one to a single element adds one to the sum. */
  lemma SeqSumIncrement(s: seq<nat>, i: nat)
    requires i < |s|
    ensures SeqSum(s[i := s[i] + 1]) == SeqSum(s) + 1
  {
    var t := s[i := s[i] + 1];
    SeqSumSplit(s, i);
    SeqSumSplit(t, i);
    assert t[..i] == s[..i];
    SeqSumSplit(s[i..], 1);
    SeqSumSplit(t[i..], 1);
    assert t[i..][1..] == s[i..][1..];
    assert SeqSum(s[i..][..1]) == s[i] by { assert s[i..][..1] == [] + [s[i]]; SeqSumAppend([], s[i]); }
    assert SeqSum(t[i..][..1]) == s[i] + 1 by { assert t[i..][..1] == [] + [s[i] + 1]; SeqSumAppend([], s[i] + 1); }
  }
}

=== FILE: wrappers.dfy ===
/** Optional values, used wherever the profiler works with a C value that may be NULL
    or a lookup that may find nothing. */
module Wrappers {

  datatype Option<+T> = None | Some(value: T)
}
